=== FILE: README.md ===
# I Ching answer book — a Dafny model of the divination core

The application is a single-page I Ching consultation. The user types a
question. Six lines are then cast, one at a time, each from a toss of
three coins (heads 3, tails 2). The six lines are read bottom-first as a
binary parity key ('1' for an odd total, yang; '0' for an even total, yin).
The key names a hexagram from the dataset, and the key of each three-line
half names one of the eight trigrams. On the result page the hexagram is
sent to an AI provider. Its free-text answer is cut at the first
"### Summary" heading into a reading and a short summary, and the summary
is cleaned of count annotations such as "(120字)" or "(45 words)".

This project models that core in Dafny and proves properties of it, in
nine modules. Six model the five source files (the result page's answer
handling is split out of `ResultView` into `Segmenter`), and three support
them (`Regex`, `JsText`, `Wrappers`):

- `IChing` (`iching.dfy`) covers coins, lines, line types, the parity key,
  the trigram table and the first-match hexagram lookup.
  - Randomness is an input: a toss is three booleans, each the outcome of
    `Math.random() < 0.5`.
  - The hexagram dataset is a parameter.
- `Regex` (`regex.dfy`) is a small matcher for the four regular expressions
  the result page uses.
  - It covers literal characters, ASCII case folding for `/i`, `\d+`,
    `\s*` and a fixed word.
  - It also models the leftmost search behind `split`, and `replace` with
    and without the `g` flag.
- `Segmenter` (`segmenter.dfy`) is the answer handler of the result page:
  split at the first summary marker, trim, clean, or fall back to the
  first 100 characters.
- `ResultView` (`result_view.dfy`) covers the choice of provider
  configuration, whether a request is made, how an answer or a rejection
  lands in the page state, the share-card summary and the page shown for
  an unknown cast.
- `HexagramDisplay` (`hexagram_display.dfy`) is the lower/upper split, the
  per-block trigram label, the top-first row order and the drawn bar of
  each line.
- `QuestionInput` (`question_input.dfy`) is the blank-question check, the
  disabled submit button and the suggestion buttons.
- `App` (`app.dfy`) is the session state machine.
  - It has the three steps, the handlers and the custom-provider switch.
  - Each event can only be dispatched while the component that fires it
    is on screen.
  - An invariant is preserved by every event, and `Divine` runs a whole
    consultation.
- `JsText` (`jstext.dfy`) holds the JavaScript string primitives used
  above: `trim` with the ECMAScript white-space set (shared with `\s`),
  `substring(0, n)` and `reverse`.
- `Wrappers` (`wrappers.dfy`) holds `Option`, which stands for `null`.

Two consequences of the code are worth spelling out:

- **Trimming precedes cleaning.** The summary "Short form (120 words)."
  becomes "Short form .": the space before the removed annotation stays
  (`Segmenter.CleanExample`).
- **The key is read bottom-first.** Totals 7, 8, 9, 6, 7, 8 give the key
  "101010" (`IChing.HexagramKeyExample`).

## Model

| member | source | states |
|---|---|---|
| IChing.ClassifyTotal | src/utils/iching.js:17-22 | a total names a line type exactly when it is 6..9, and the line type's value is that total |
| IChing.LineTypeRoundTrip | src/utils/iching.js:17-22 | line-type values and classification are mutually inverse |
| IChing.TossOneCoin | src/utils/iching.js:28-30 | a coin is worth 2 or 3, and 2 (tail) exactly when the draw is below one half |
| IChing.TossLine | src/utils/iching.js:36-44 | three coins of 2 or 3 whose sum is the total; 6 ≤ total ≤ 9 and equals 6 plus the heads; changing iff 6 or 9; 6 only from three tails and 9 only from three heads |
| IChing.TossLineBijective | src/utils/iching.js:36-43 | tossing is a bijection between draw triples and well-formed lines |
| IChing.AllFlipsEnumerates | src/utils/iching.js:36-37 | the eight draw triples are listed once each, and every triple is among them |
| IChing.CountTotal | src/utils/iching.js:7-12 | the number of listed triples with a given total, at most the number of triples (a helper bound; `TotalDistribution` states the counts) |
| IChing.TotalDistribution | src/utils/iching.js:7-12 | over the eight triples totals 6, 7, 8, 9 arise 1, 3, 3, 1 times and no other total arises |
| IChing.HexagramKey | src/utils/iching.js:76-82 | same length as the stack; character i is '1' iff line i's total is odd, bottom line first; only '0'/'1' |
| IChing.HexagramKeyConcat | src/utils/iching.js:78-81 | the key of a concatenation is the concatenation of the keys |
| IChing.HexagramKeyExample | src/utils/iching.js:76-82 | totals 7, 8, 9, 6, 7, 8 give the key "101010" |
| IChing.TrigramTableComplete | src/utils/iching.js:48-57 | the trigram table has exactly the eight three-character binary keys, with distinct records |
| IChing.GetTrigram | src/utils/iching.js:63-67 | a trigram exactly for three lines, namely the table entry of their key |
| IChing.GetTrigramInjective | src/utils/iching.js:63-67 | equal resolved trigrams imply equal keys |
| IChing.FindBinary | src/utils/iching.js:90 | the index of the first record with the key, or none when no record has it |
| IChing.LookupHexagram | src/utils/iching.js:88-91 | a record exactly when some record has the key; the one returned carries the key and no earlier record does |
| IChing.CompleteTableResolves | src/utils/iching.js:88-91 | with a record for every six-character key, every six-line cast resolves |
| IChing.WrongHeightMisses | src/utils/iching.js:88-91 | with six-character binaries only, stacks of any other height resolve to nothing |
| JsText.TrimStart | src/components/QuestionInput.jsx:11 | the longest suffix not starting with white space; what is removed is all white space |
| JsText.TrimEnd | src/components/QuestionInput.jsx:11 | the longest prefix not ending with white space; what is removed is all white space |
| JsText.Trim | src/components/ResultView.jsx:41 | empty exactly for all-white-space input; otherwise neither starts nor ends with white space |
| JsText.TrimPadded | src/components/ResultView.jsx:41 | trimming white-space padding around a core recovers exactly that core |
| JsText.TrimSplits | src/components/ResultView.jsx:41 | every string is its trimmed text with white-space padding on both sides |
| JsText.TrimIdempotent | src/components/ResultView.jsx:41 | trimming twice equals trimming once |
| JsText.Take | src/components/ResultView.jsx:48 | a prefix of length min(n, length) |
| JsText.Reverse | src/components/HexagramDisplay.jsx:64 | position i of the result holds element length-1-i |
| JsText.ReverseInvolution | src/components/ResultView.jsx:83 | reversing twice is the identity |
| Regex.DigitsEnd | src/components/ResultView.jsx:42 | greedy `\d` run: every character before the end is a digit and the end is not |
| Regex.SpacesEnd | src/components/ResultView.jsx:42 | greedy `\s` run: every character before the end is white space and the end is not |
| Regex.MatchEnd | src/components/ResultView.jsx:37 | the end of the match of the expression at a position, if any |
| Regex.OpensMatch | src/components/ResultView.jsx:37 | a match of an expression whose alternatives all start with c starts with c and is non-empty |
| Regex.FindFrom | src/components/ResultView.jsx:37 | the leftmost matching position at or after `from`; none iff no position matches |
| Regex.RemoveFrom | src/components/ResultView.jsx:42 | global removal never lengthens the text |
| Regex.RemoveAll | src/components/ResultView.jsx:42 | `replace(/…/g, '')` never lengthens the text |
| Regex.RemoveFirst | src/components/ResultView.jsx:42 | `replace(/…/, '')` never lengthens the text |
| Regex.RemoveFirstChanges | src/components/ResultView.jsx:42 | non-global removal leaves the text unchanged iff nothing matches, and shortens it otherwise |
| Regex.FindFromFirst | src/components/ResultView.jsx:37 | a match with no match before it is the one the search finds |
| Regex.RemoveFromNoMatch | src/components/ResultView.jsx:42 | without matches global removal is the identity |
| Regex.RemoveFromSkips | src/components/ResultView.jsx:42 | a stretch free of the opening character is copied unchanged |
| Regex.RemoveFromDrops | src/components/ResultView.jsx:42 | a match at the current position is dropped and removal resumes at its end |
| Regex.RemoveFromKeeps | src/components/ResultView.jsx:42 | a character that starts no match is copied and removal resumes after it, even when it is the opening character |
| Regex.RemoveFirstAt | src/components/ResultView.jsx:42 | the first match is cut out and everything else kept, whatever comes before it |
| Regex.RemoveFirstDrops | src/components/ResultView.jsx:42 | the first match is cut out and everything else kept |
| Regex.RemoveAllWithout | src/components/ResultView.jsx:42 | text without the opening character is left unchanged by global removal |
| Regex.RemoveFirstWithout | src/components/ResultView.jsx:42 | text without the opening character is left unchanged by single removal |
| Segmenter.MarkerMatches | src/components/ResultView.jsx:37 | `###`, white space and a heading word, spelled in any ASCII case, is a marker match ending after the word |
| Segmenter.MarkerShape | src/components/ResultView.jsx:37 | conversely, every marker match is `###`, white space and a heading word in some ASCII case, and ends after the word |
| Segmenter.NoHashNoMarker | src/components/ResultView.jsx:37 | text without '#' holds no marker |
| Segmenter.Fallback | src/components/ResultView.jsx:45-48 | reading is the whole text; summary is its first min(100, length) characters followed by "...", even for short text |
| Segmenter.SplitAt | src/components/ResultView.jsx:38-44 | reading shorter than the marker position and without white-space ends; summary shorter than the rest of the text |
| Segmenter.Parts | src/components/ResultView.jsx:41-44 | neither part grows; the reading has no white space at either end |
| Segmenter.SummaryEnd | src/components/ResultView.jsx:37 | the summary stops before the end of the text exactly when another marker follows |
| Segmenter.Segment | src/components/ResultView.jsx:37-49 | without a marker the fallback; with one, both parts strictly shorter than the text and the reading trimmed |
| Segmenter.SegmentAtFirstMarker | src/components/ResultView.jsx:37-44 | with the first match at p ending at e, reading = trim(text before p) and summary = clean(trim(text from e to the next match or the end)) |
| Segmenter.SegmentAtMarker | src/components/ResultView.jsx:37-44 | a single heading, its word in any ASCII case, splits the text into trimmed reading and cleaned trimmed remainder |
| Segmenter.SegmentComposed | src/components/ResultView.jsx:37-44 | segmenting reading + heading (word in any ASCII case) + body, with no '#' in reading or body, gives back trim(reading) and clean(trim(body)) |
| Segmenter.SegmentWithoutHash | src/components/ResultView.jsx:45-48 | text without '#' is its own reading with its first 100 characters and "..." as summary |
| Segmenter.Clean | src/components/ResultView.jsx:42 | cleaning never lengthens the summary (what it removes: the lemmas below) |
| Segmenter.CleanPlain | src/components/ResultView.jsx:42 | text without '(' or '（' is left unchanged by cleaning |
| Segmenter.CharCountRemoved | src/components/ResultView.jsx:42 | one bracketed digit run with 字 is removed and the surrounding text kept |
| Segmenter.CleanFullwidthCount | src/components/ResultView.jsx:42 | cleaning removes a `（N字）` annotation and keeps the rest |
| Segmenter.CleanAsciiCount | src/components/ResultView.jsx:42 | cleaning removes a `(N字)` annotation and keeps the rest |
| Segmenter.CleanWordCount | src/components/ResultView.jsx:42 | cleaning removes a `(N words)` annotation, with any white space before "words" and "words" in any ASCII case, and keeps the rest |
| Segmenter.CleanRemovesWordCount | src/components/ResultView.jsx:42 | positionally: the word-count annotation ("words" in any ASCII case) is cut out and everything else kept, including any '(' that no digit follows |
| Segmenter.AsideNoCount | src/components/ResultView.jsx:42 | neither `(N字)` nor `(N words)` starts at a '(' that no digit follows |
| Segmenter.CleanKeepsAside | src/components/ResultView.jsx:42 | in "Act now (before spring). (45 words)" and any text of that shape, only the word count is removed |
| Segmenter.AsciiCountKeeps | src/components/ResultView.jsx:42 | a '(' followed by digits and then neither 字 nor a digit is not an ASCII count annotation, nor is a '(' that no digit follows |
| Segmenter.CleanExample | src/components/ResultView.jsx:41-42 | "Short form (120 words)." cleans to "Short form ." (space kept: trimming precedes cleaning) |
| HexagramDisplay.LowerLines | src/components/HexagramDisplay.jsx:140 | the first min(3, n) lines |
| HexagramDisplay.UpperLines | src/components/HexagramDisplay.jsx:140-141 | the remaining lines: lower followed by upper is the whole stack |
| HexagramDisplay.TrigramsResolve | src/components/HexagramDisplay.jsx:143-144 | for at most six lines, the lower trigram resolves iff n ≥ 3 and the upper iff n = 6 |
| HexagramDisplay.KeySplits | src/components/HexagramDisplay.jsx:140-144 | key(lines) = key(lower) + key(upper); for six lines both halves are trigram keys |
| HexagramDisplay.ViewLine | src/components/HexagramDisplay.jsx:78-80 | a line-type label exactly for totals 6..9, naming that total |
| HexagramDisplay.ViewAgreesWithKey | src/components/HexagramDisplay.jsx:8-11 | the bar is yang iff the key has '1' there; for a tossed line the highlight marks exactly old yin and old yang |
| HexagramDisplay.ViewRows | src/components/HexagramDisplay.jsx:64-78 | row i shows line n-1-i: top line first |
| HexagramDisplay.ViewBlock | src/components/HexagramDisplay.jsx:62-91 | one row per line; a trigram label exactly for three lines, naming the trigram of their key |
| HexagramDisplay.Display | src/components/HexagramDisplay.jsx:137-173 | upper block iff n > 3, lower block iff n > 0, gap iff both, placeholder iff empty |
| HexagramDisplay.PanelShowsStackTopDown | src/components/HexagramDisplay.jsx:148-171 | reading the two blocks from the top shows every line once, latest first |
| HexagramDisplay.FullCastLabels | src/components/HexagramDisplay.jsx:140-171 | for six lines each block is labelled with the trigram of its half of the key |
| HexagramDisplay.PartialCastLabels | src/components/HexagramDisplay.jsx:140-171 | from three lines on, the lower block is labelled with the trigram of the first three lines; the upper block is labelled iff all six lines are cast |
| QuestionInput.Submit | src/components/QuestionInput.jsx:9-14 | a question is confirmed iff the draft holds a non-white-space character, and it is the draft untrimmed |
| QuestionInput.DisabledIffIgnored | src/components/QuestionInput.jsx:45 | the submit button is disabled exactly when submitting would be ignored, i.e. the draft is all white space |
| QuestionInput.PaddingIrrelevant | src/components/QuestionInput.jsx:11 | white-space padding changes neither acceptance nor the trimmed question |
| QuestionInput.ChooseSuggestion | src/components/QuestionInput.jsx:37 | the new draft is exactly the clicked suggestion, whatever was typed |
| QuestionInput.SuggestionSubmits | src/components/QuestionInput.jsx:37 | a chosen non-blank suggestion is confirmed verbatim |
| ResultView.EffectiveConfig | src/components/ResultView.jsx:28-29 | the user's configuration iff it carries a key (or equals the defaults), else the defaults; the key is empty only if both are |
| ResultView.PlannedRequest | src/components/ResultView.jsx:26-33 | a request iff a hexagram resolved and the user or default key is set; it always carries a key; it is the user's configuration when the user's key is set and the deployment defaults otherwise |
| ResultView.UserKeyWins | src/components/ResultView.jsx:28-29 | with a user key the defaults do not influence the request |
| ResultView.StartRequest | src/components/ResultView.jsx:32 | the spinner shows and both texts are kept |
| ResultView.Settle | src/components/ResultView.jsx:34-52 | spinner off; an answer gives its segmentation; a rejection gives the error prefix followed by the message and keeps the summary |
| ResultView.RejectionsDistinguishable | src/components/ResultView.jsx:51 | different rejection messages give different error texts |
| ResultView.ShareSummary | src/components/ResultView.jsx:146 | the summary if non-empty, else the first min(150, length) characters of the reading and "..."; never empty |
| ResultView.ShareWithoutMarker | src/components/ResultView.jsx:146 | without a marker the share card shows the 100-character fallback summary |
| ResultView.ShareEmptySummary | src/components/ResultView.jsx:146 | an empty cleaned summary makes the share card show the start of the reading |
| ResultView.UnknownPattern | src/components/ResultView.jsx:83 | one binary character per line, top line first, '1' for odd totals |
| ResultView.PatternIsReversedKey | src/components/ResultView.jsx:82-83 | the pattern is the key reversed, and reversing it recovers the key |
| ResultView.Totals | src/components/ResultView.jsx:84 | the raw totals, one per line in order |
| ResultView.ShowResult | src/components/ResultView.jsx:20-84 | the unknown page iff the lookup fails, with the key, its reversal and the totals; otherwise exactly the record the lookup returns, with the request planned for it |
| App.ConfirmQuestion | src/App.jsx:26-30 | step toss, question as given, empty stack; settings kept |
| App.TossComplete | src/App.jsx:32-38 | earlier lines kept, the new line last; result step iff the stack reaches six, else the step unchanged |
| App.Reset | src/App.jsx:40-44 | question step, empty question and stack, from any step; settings kept |
| App.ToggleCustom | src/App.jsx:61-69 | on opens the dialog; off clears the key and keeps the provider; the switch then reads on iff turned on or the dialog is open |
| App.OpenSettings | src/App.jsx:74 | the dialog opens, nothing else changes |
| App.SaveSettings | src/App.jsx:102-106 | the configuration is replaced, the dialog stays open (AISettings closes it a second later; modelled as a separate `Closed` event) |
| App.CloseSettings | src/App.jsx:107 | the dialog closes; the switch then reads on iff a user key is set |
| App.Dispatch | src/App.jsx:56-109 | an event from a component that is not rendered changes nothing |
| App.InitialValid | src/App.jsx:17-24 | the initial session satisfies the invariant, with the switch off |
| App.DispatchPreservesValid | src/App.jsx:83-96 | every event preserves the invariant (question step empty, toss step < 6 lines with a non-blank question, result step exactly 6, all lines genuine tosses); no seventh line |
| App.CastKeepsValid | src/App.jsx:87-90 | a cast during the toss step keeps the invariant |
| App.CastAppends | src/App.jsx:32-37 | during the toss step a cast appends exactly the tossed line and ends the cast on the sixth; in other steps it changes nothing |
| App.SubmitStartsCast | src/App.jsx:83-84 | submitting starts the cast iff the draft is not blank, keeping it as typed; a blank draft changes nothing |
| App.ResetRestarts | src/App.jsx:40-44 | reset from the result gives the initial session except for the provider settings |
| App.SwitchOnlyWhileAsking | src/App.jsx:56-78 | outside the question step the switch and its label do nothing |
| App.SwitchWhileAsking | src/App.jsx:56-107 | in the question step the switch and its label reach their handlers; with the dialog open, saving and closing reach theirs |
| App.ResultResolves | src/App.jsx:94-95 | with a complete dataset the result step always finds the hexagram of the cast's key |
| App.Render | src/App.jsx:83-96 | ask screen iff question step; toss screen iff toss step, showing the stack and cast number lines + 1 |
| App.CastNumberInRange | src/App.jsx:90 | in a valid session the cast number is 1..6, and the placeholder shows only for the first cast |
| App.SubmitProgress | src/App.jsx:26-30 | submitting a draft from the initial page starts a consultation with no line cast yet |
| App.CastProgress | src/App.jsx:32-37 | one press of the coins advances a consultation by one line until six are cast |
| App.Divine | src/App.jsx:26-38 | a blank draft leaves the page as it was; otherwise the question is the draft, the stack holds the tosses of the first min(6, presses) draws in order, and the result shows iff six presses were made |
| App.StaleTossComplete | src/App.jsx:32-38 | the handler as written builds the stack from the lines captured at click time; with an unchanged stack it agrees with `TossComplete` |
| App.OverlappingCastsLoseLine | src/components/CoinToss.jsx:57-90 | two overlapping casts with different lines leave one new line, the first lost; on the sixth cast the result shows the second line |
| App.ConsecutiveCastsKeepBoth | src/App.jsx:32-38 | appending to the current stack, two casts add both lines in order |

## Left out

- **Repeated requests.** The result page's effect runs again whenever `hexagram`, `aiConfig`, `question` or `lang` changes (src/components/ResultView.jsx:55), so a language switch sends a second request, and the two can settle in either order. The model covers one request per result.
- **Provider requests.** The prompts and the `fetch` calls to Gemini, OpenAI and Grok in src/utils/ai.js are network I/O. An answer enters as an arbitrary string and a failure as a message (`ResultView.Outcome`). Those functions turn their own errors into ordinary strings, so in practice the rejection path carries only unexpected failures.
- **Randomness.** `Math.random()` is replaced by explicit booleans. Only the enumeration over the eight triples is stated, not a sampling distribution.
- **The coin component.** CoinToss's timer, dynamic import, animation and `isAnimating` guard are left out. The session model assumes one cast at a time. The guard does not ensure this: it is cleared a second before the line is reported (see Findings).
- **The hexagram dataset.** src/data/hexagrams is not part of this model. It is a parameter, and completeness is a hypothesis where a lemma needs it.
- **Numeric lines in `getHexagramKey`.** The branch for plain numbers rather than line objects is not modelled; every caller passes line objects.
- **Other components.** ShareCard (layout plus a cosmetic strip of a marker in its own copy of the summary), AISettings (the dialog's form), LanguageContext and the translation tables are not modelled. Neither are html2canvas export, ReactMarkdown rendering, the `formatAI` placeholder interpolation, CSS and the Vercel analytics tag.
- **Language-dependent text.** Labels are recorded as the trigram record or line type they show, not as strings.
- **Number formatting.** The raw-values line prints totals joined by ", "; the model keeps the totals as numbers.
- **Character encoding.** Characters stand for UTF-16 code units. Surrogate pairs are not modelled. The `i` flag is modelled as ASCII case folding. That is exact for these patterns: their only cased letters are ASCII, and a non-unicode `/i` never lets a non-ASCII character match an ASCII one.
- **Deployment defaults.** `import.meta.env` defaults enter as a parameter, with an unset key written as the empty string.
- Segmenter.Clean: its own contract only bounds the length. What it removes is stated by `CleanPlain`, `CleanFullwidthCount`, `CleanAsciiCount`, `CleanWordCount`, `CleanRemovesWordCount` and `CleanKeepsAside`. These cover one annotation in text whose other brackets, if any, hold no digits, rather than arbitrary mixtures.
- Regex.RemoveAll: like `RemoveFirst`, its contract only bounds the length. Its behaviour at every position is fixed by three laws: `RemoveFromDrops` (a match), `RemoveFromKeeps` (no match, even at the opening character) and `RemoveFromNoMatch` (the end of the text). `RemoveFromSkips` and `RemoveAllWithout` are shortcuts for stretches without the opening character.
- Regex.RemoveFirst: its contract only bounds the length. `RemoveFirstChanges` (no match) and `RemoveFirstAt` (a first match, whatever precedes it) together fix the result.
- Segmenter.Segment: its own contract gives the fallback exactly but only bounds and trimmed edges with a marker. The split contents are stated by `SegmentAtFirstMarker`, `SegmentAtMarker` and `SegmentComposed`.
- Segmenter.SplitAt: likewise bounds only. Its contents are stated by `SegmentAtFirstMarker`.
- Segmenter.SegmentComposed: covers a reading and a body without '#'. Text with several markers is covered positionally by `SegmentAtFirstMarker`.

## Findings

| source | as written | input that shows it | evidently intended | confidence | as-written member | corrected member |
|---|---|---|---|---|---|---|
| src/App.jsx:32-34 with src/components/CoinToss.jsx:78-86 | `handleTossComplete` appends to the `lines` captured when the coins were clicked; CoinToss clears `isAnimating` a second before it reports the line | two clicks on the coins less than a second apart, after the first animation ends: the second report overwrites the first line (`OverlappingCastsLoseLine`) | each reported line is appended to the current stack (`ConsecutiveCastsKeepBoth`) | medium, not executed | App.StaleTossComplete | App.TossComplete |

=== FILE: app.dfy ===
/** The session: a question is asked, six lines are cast one at a time, and
    the result is shown until the user starts over. The custom-provider
    switch and the settings dialog live beside the steps. Events are the
    callbacks the rendered components can fire; a component that is not
    rendered fires nothing, which `Enabled` records. */
module App {
  import opened Wrappers
  import opened JsText
  import opened IChing
  import opened QuestionInput
  import opened HexagramDisplay
  import opened ResultView

  datatype Step = QuestionStep | TossStep | ResultStep

  /** The state `AppContent` keeps. */
  datatype Session = Session(
    step: Step, question: string, lines: seq<Line>, aiConfig: AiConfig, showSettings: bool)

  /** Lines in a complete cast. */
  const HexagramHeight := 6

  const DefaultConfig := AiConfig("gemini", "")

  const Initial := Session(QuestionStep, "", [], DefaultConfig, false)

  /** `handleQuestionConfirm`: keep the question and start casting from an
      empty stack. */
  function ConfirmQuestion(s: Session, q: string): (r: Session)
    ensures r.step == TossStep && r.question == q && r.lines == []
    ensures r.aiConfig == s.aiConfig && r.showSettings == s.showSettings
  {
    s.(step := TossStep, question := q, lines := [])
  }

  /** `handleTossComplete`: push the new line on top of the stack and move
      on to the result once the stack is full. */
  function TossComplete(s: Session, l: Line): (r: Session)
    ensures |r.lines| == |s.lines| + 1
    ensures r.lines[..|s.lines|] == s.lines && r.lines[|s.lines|] == l
    ensures r.step == (if |s.lines| + 1 >= HexagramHeight then ResultStep else s.step)
    ensures r.question == s.question && r.aiConfig == s.aiConfig && r.showSettings == s.showSettings
  {
    var lines := s.lines + [l];
    assert lines[..|s.lines|] == s.lines;
    s.(lines := lines, step := if |lines| >= HexagramHeight then ResultStep else s.step)
  }

  /** `handleReset`: back to an empty question, whatever the step; the
      provider settings survive. */
  function Reset(s: Session): (r: Session)
    ensures r.step == QuestionStep && r.question == [] && r.lines == []
    ensures r.aiConfig == s.aiConfig && r.showSettings == s.showSettings
  {
    s.(step := QuestionStep, question := "", lines := [])
  }

  /** The custom-provider switch reads as on while the dialog is open or a
      key of the user's own is set. */
  predicate SwitchChecked(s: Session)
  {
    s.showSettings || s.aiConfig.apiKey != []
  }

  /** Flipping the switch: on opens the dialog, off forgets the user's key
      but keeps the chosen provider. */
  function ToggleCustom(s: Session, checked: bool): (r: Session)
    ensures checked ==> r.showSettings && r.aiConfig == s.aiConfig
    ensures !checked ==> r.aiConfig.apiKey == [] && r.aiConfig.provider == s.aiConfig.provider
    ensures !checked ==> r.showSettings == s.showSettings
    ensures SwitchChecked(r) <==> checked || s.showSettings
    ensures r.step == s.step && r.question == s.question && r.lines == s.lines
  {
    if checked then s.(showSettings := true)
    else s.(aiConfig := s.aiConfig.(apiKey := ""))
  }

  /** Clicking the switch's label opens the dialog. */
  function OpenSettings(s: Session): (r: Session)
    ensures r.showSettings && SwitchChecked(r)
    ensures r.(showSettings := s.showSettings) == s
  {
    s.(showSettings := true)
  }

  /** The dialog's save keeps it open (its form closes it a second
      later, which arrives as a separate `Closed` event); closing it hides
      it. */
  function SaveSettings(s: Session, c: AiConfig): (r: Session)
    ensures r.aiConfig == c
    ensures r.(aiConfig := s.aiConfig) == s
  {
    s.(aiConfig := c)
  }

  function CloseSettings(s: Session): (r: Session)
    ensures !r.showSettings
    ensures SwitchChecked(r) <==> s.aiConfig.apiKey != []
    ensures r.(showSettings := s.showSettings) == s
  {
    s.(showSettings := false)
  }

  /** The callbacks a rendered component can fire. A cast carries the
      draws of the toss the coin component performed. */
  datatype Event =
    | Submitted(draft: string)
    | Cast(flips: Flips)
    | ResetPressed
    | Toggled(checked: bool)
    | LabelClicked
    | Saved(config: AiConfig)
    | Closed

  /** Whether the component firing the event is on screen: the form and
      the switch only while asking, the coins only while casting, the
      reset button only on the result, the dialog only while open. */
  predicate Enabled(s: Session, e: Event)
  {
    match e
    case Submitted(_) => s.step == QuestionStep
    case Cast(_) => s.step == TossStep
    case ResetPressed => s.step == ResultStep
    case Toggled(_) => s.step == QuestionStep
    case LabelClicked => s.step == QuestionStep
    case Saved(_) => s.showSettings
    case Closed => s.showSettings
  }

  /** One event: ignored when its component is not rendered, otherwise the
      handler it reaches. A blank draft reaches no handler. */
  function Dispatch(s: Session, e: Event): (r: Session)
    ensures !Enabled(s, e) ==> r == s
  {
    if !Enabled(s, e) then s
    else match e
      case Submitted(draft) =>
        (match Submit(draft)
         case None => s
         case Some(q) => ConfirmQuestion(s, q))
      case Cast(f) => TossComplete(s, TossLine(f))
      case ResetPressed => Reset(s)
      case Toggled(checked) => ToggleCustom(s, checked)
      case LabelClicked => OpenSettings(s)
      case Saved(c) => SaveSettings(s, c)
      case Closed => CloseSettings(s)
  }

  /** What every reachable session satisfies: asking starts from nothing,
      casting holds a non-blank question and fewer than six lines, the
      result exactly six; every line is a genuine toss. */
  predicate Valid(s: Session)
  {
    && (s.step == QuestionStep ==> s.question == [] && s.lines == [])
    && (s.step == TossStep ==> NonBlank(s.question) && |s.lines| < HexagramHeight)
    && (s.step == ResultStep ==> NonBlank(s.question) && |s.lines| == HexagramHeight)
    && (forall i :: 0 <= i < |s.lines| ==> WellFormed(s.lines[i]))
  }

  lemma InitialValid()
    ensures Valid(Initial)
    ensures !SwitchChecked(Initial)
  {
  }

  /** Every event keeps a session valid; in particular no seventh line is
      ever appended. */
  lemma DispatchPreservesValid(s: Session, e: Event)
    requires Valid(s)
    ensures Valid(Dispatch(s, e))
    ensures |Dispatch(s, e).lines| <= HexagramHeight
  {
    if !Enabled(s, e) {
      return;
    }
    match e
    case Cast(f) => CastKeepsValid(s, f);
    case Submitted(draft) =>
    case _ =>
  }

  lemma CastKeepsValid(s: Session, f: Flips)
    requires Valid(s) && s.step == TossStep
    ensures Valid(Dispatch(s, Cast(f)))
  {
    CastAppends(s, f);
    var r := Dispatch(s, Cast(f));
    forall i | 0 <= i < |r.lines| ensures WellFormed(r.lines[i]) {
      if i < |s.lines| { assert r.lines[i] == s.lines[i]; }
    }
  }

  /** A cast while casting appends exactly the tossed line and finishes the
      cast on the sixth line; a cast at any other step changes nothing. */
  lemma CastAppends(s: Session, f: Flips)
    ensures s.step == TossStep ==> Dispatch(s, Cast(f)).lines == s.lines + [TossLine(f)]
    ensures s.step == TossStep ==> (Dispatch(s, Cast(f)).step == ResultStep <==> |s.lines| >= HexagramHeight - 1)
    ensures s.step != TossStep ==> Dispatch(s, Cast(f)) == s
  {
    if s.step == TossStep {
      var r := Dispatch(s, Cast(f));
      assert r.lines == r.lines[..|s.lines|] + r.lines[|s.lines|..];
    }
  }

  /** A submitted draft starts the cast exactly when it is not blank, and
      the question kept is the draft as typed. */
  lemma SubmitStartsCast(s: Session, draft: string)
    requires Valid(s) && s.step == QuestionStep
    ensures Dispatch(s, Submitted(draft)).step == TossStep <==> !AllSpace(draft)
    ensures !AllSpace(draft) ==> Dispatch(s, Submitted(draft)).question == draft
    ensures AllSpace(draft) ==> Dispatch(s, Submitted(draft)) == s
  {
  }

  /** Reset, wherever the reset button is on screen, returns to the
      initial session apart from the provider settings. */
  lemma ResetRestarts(s: Session)
    requires Valid(s) && s.step == ResultStep
    ensures Dispatch(s, ResetPressed) == Initial.(aiConfig := s.aiConfig, showSettings := s.showSettings)
  {
  }

  /** The switch ignores clicks outside the question step. */
  lemma SwitchOnlyWhileAsking(s: Session, checked: bool)
    requires s.step != QuestionStep
    ensures Dispatch(s, Toggled(checked)) == s
    ensures Dispatch(s, LabelClicked) == s
  {
  }

  /** While asking, the switch and its label reach their handlers; while
      the dialog is open, saving and closing reach theirs. */
  lemma SwitchWhileAsking(s: Session, checked: bool, c: AiConfig)
    ensures s.step == QuestionStep ==> Dispatch(s, Toggled(checked)) == ToggleCustom(s, checked)
    ensures s.step == QuestionStep ==> Dispatch(s, LabelClicked) == OpenSettings(s)
    ensures s.showSettings ==> Dispatch(s, Saved(c)) == SaveSettings(s, c)
    ensures s.showSettings ==> Dispatch(s, Closed) == CloseSettings(s)
  {
  }

  /** With a dataset holding every key, the result step always finds its
      hexagram, and it is the one whose binary is the cast's key. */
  lemma ResultResolves(table: seq<Hexagram>, s: Session)
    requires Complete(table)
    requires Valid(s) && s.step == ResultStep
    ensures LookupHexagram(table, s.lines).Some?
    ensures LookupHexagram(table, s.lines).value.binary == HexagramKey(s.lines)
  {
    CompleteTableResolves(table, s.lines);
  }

  /** The main area of the page. While casting it shows the stack so far
      and the number of the line about to be cast. */
  datatype Screen =
    | AskScreen
    | TossScreen(panel: DisplayView, castNumber: nat)
    | ResultScreen(question: string, lines: seq<Line>, aiConfig: AiConfig)

  function Render(s: Session): (sc: Screen)
    ensures sc.AskScreen? <==> s.step == QuestionStep
    ensures sc.TossScreen? <==> s.step == TossStep
    ensures sc.TossScreen? ==> sc.castNumber == |s.lines| + 1 && sc.panel == Display(s.lines)
    ensures sc.ResultScreen? ==> sc.question == s.question && sc.lines == s.lines && sc.aiConfig == s.aiConfig
  {
    match s.step
    case QuestionStep => AskScreen
    case TossStep => TossScreen(Display(s.lines), |s.lines| + 1)
    case ResultStep => ResultScreen(s.question, s.lines, s.aiConfig)
  }

  /** In a valid session the cast number runs from 1 to 6, and the empty
      placeholder shows exactly before the first line. */
  lemma CastNumberInRange(s: Session)
    requires Valid(s) && s.step == TossStep
    ensures 1 <= Render(s).castNumber <= HexagramHeight
    ensures Render(s).panel.placeholder <==> Render(s).castNumber == 1
  {
  }

  /** The stack holds the lines tossed from the first `n` draws, in
      order. */
  predicate TossedFrom(lines: seq<Line>, casts: seq<Flips>, n: nat)
  {
    && |lines| == n && n <= |casts|
    && forall k :: 0 <= k < n ==> lines[k] == TossLine(casts[k])
  }

  /** Where a consultation stands after the draft was submitted and the
      first `i` entries of `casts` were pressed. */
  predicate Progress(s: Session, draft: string, casts: seq<Flips>, i: nat)
    requires i <= |casts|
  {
    if AllSpace(draft) then s == Initial
    else
      && s.question == draft
      && TossedFrom(s.lines, casts, Min(HexagramHeight, i))
      && (s.step == ResultStep <==> i >= HexagramHeight)
      && (s.step == TossStep <==> i < HexagramHeight)
  }

  lemma SubmitProgress(draft: string, casts: seq<Flips>)
    ensures Progress(Dispatch(Initial, Submitted(draft)), draft, casts, 0)
  {
    InitialValid();
    SubmitStartsCast(Initial, draft);
  }

  lemma CastProgress(s: Session, draft: string, casts: seq<Flips>, i: nat)
    requires i < |casts|
    requires Progress(s, draft, casts, i)
    ensures Progress(Dispatch(s, Cast(casts[i])), draft, casts, i + 1)
  {
    CastAppends(s, casts[i]);
    if !AllSpace(draft) && i < HexagramHeight {
      var r := Dispatch(s, Cast(casts[i]));
      forall k | 0 <= k < i + 1 ensures r.lines[k] == TossLine(casts[k]) {
        if k < i { assert r.lines[k] == s.lines[k]; }
      }
    }
  }

  /** A whole consultation from a fresh page: submit a draft, then press
      the coins once per entry of `casts`. Casts after the sixth land on
      the result page, where the coins are gone, and change nothing. */
  method Divine(draft: string, casts: seq<Flips>) returns (s: Session)
    ensures Valid(s)
    ensures AllSpace(draft) ==> s == Initial
    ensures !AllSpace(draft) ==> s.question == draft
    ensures !AllSpace(draft) ==> |s.lines| == Min(HexagramHeight, |casts|)
    ensures !AllSpace(draft) ==> forall k :: 0 <= k < |s.lines| ==> s.lines[k] == TossLine(casts[k])
    ensures !AllSpace(draft) ==> (s.step == ResultStep <==> |casts| >= HexagramHeight)
    ensures !AllSpace(draft) ==> (s.step == TossStep <==> |casts| < HexagramHeight)
  {
    InitialValid();
    DispatchPreservesValid(Initial, Submitted(draft));
    SubmitProgress(draft, casts);
    s := Dispatch(Initial, Submitted(draft));
    var i := 0;
    while i < |casts|
      invariant i <= |casts|
      invariant Valid(s)
      invariant Progress(s, draft, casts, i)
    {
      CastProgress(s, draft, casts, i);
      DispatchPreservesValid(s, Cast(casts[i]));
      s := Dispatch(s, Cast(casts[i]));
      i := i + 1;
    }
  }

  // ---------------------------------------------------------------------
  // Overlapping casts

  /** `handleTossComplete` as written: the new stack is built from the
      `lines` the handler closed over when the coins were clicked, not from
      the stack current when the line is reported. */
  function StaleTossComplete(s: Session, captured: seq<Line>, l: Line): (r: Session)
    ensures captured == s.lines ==> r == TossComplete(s, l)
    ensures r.question == s.question && r.aiConfig == s.aiConfig && r.showSettings == s.showSettings
  {
    var lines := captured + [l];
    s.(lines := lines, step := if |lines| >= HexagramHeight then ResultStep else s.step)
  }

  /** The coin button is enabled again a second before the line is
      reported, so a second click can start while the first line is still
      pending; both handlers then close over the same stack, and the second
      report overwrites the first line, on the sixth cast while the result
      is already shown. */
  lemma OverlappingCastsLoseLine(s: Session, l1: Line, l2: Line)
    requires s.step == TossStep && l1 != l2
    ensures var r := StaleTossComplete(StaleTossComplete(s, s.lines, l1), s.lines, l2);
      && |r.lines| == |s.lines| + 1 && l1 !in r.lines[|s.lines|..]
      && (|s.lines| + 1 == HexagramHeight ==> r.step == ResultStep && r.lines[|s.lines|] == l2)
  {
  }

  /** With the stack current at each report, two casts add both lines, in
      order. */
  lemma {:induction false} ConsecutiveCastsKeepBoth(s: Session, l1: Line, l2: Line)
    ensures TossComplete(TossComplete(s, l1), l2).lines == s.lines + [l1, l2]
  {
    var r := TossComplete(TossComplete(s, l1), l2);
    assert r.lines == s.lines + [l1] + [l2];
  }
}

=== FILE: hexagram_display.dfy ===
/** What the hexagram panel shows for a stack of cast lines: the stack is
    cut into a lower and an upper trigram, each half is resolved against
    the trigram table on its own, and each block lists its lines top line
    first. Styling, translations and the language switch are not part of
    this model; a view records which line type, trigram and flags the page
    would render. */
module HexagramDisplay {
  import opened Wrappers
  import opened JsText
  import opened IChing

  /** `lines.slice(0, 3)`: the lower trigram's lines. */
  function LowerLines(lines: seq<Line>): (r: seq<Line>)
    ensures |r| == Min(3, |lines|)
    ensures r <= lines
  {
    lines[..Min(3, |lines|)]
  }

  /** `lines.slice(3)`: whatever lies above the lower trigram. */
  function UpperLines(lines: seq<Line>): (r: seq<Line>)
    ensures |r| == |lines| - Min(3, |lines|)
    ensures LowerLines(lines) + r == lines
  {
    lines[Min(3, |lines|)..]
  }

  /** While at most six lines are cast, the lower trigram resolves from the
      third line on and the upper one only once all six are there. */
  lemma TrigramsResolve(lines: seq<Line>)
    requires |lines| <= 6
    ensures GetTrigram(LowerLines(lines)).Some? <==> |lines| >= 3
    ensures GetTrigram(UpperLines(lines)).Some? <==> |lines| == 6
  {
  }

  /** The hexagram key is the lower trigram's key followed by the upper
      trigram's key; for a full cast both halves are trigram-table keys. */
  lemma KeySplits(lines: seq<Line>)
    ensures HexagramKey(lines) == HexagramKey(LowerLines(lines)) + HexagramKey(UpperLines(lines))
    ensures |lines| == 6 ==> HexagramKey(lines)[..3] in Trigrams && HexagramKey(lines)[3..] in Trigrams
  {
    HexagramKeyConcat(LowerLines(lines), UpperLines(lines));
    if |lines| == 6 {
      TrigramTableComplete(HexagramKey(LowerLines(lines)));
      TrigramTableComplete(HexagramKey(UpperLines(lines)));
    }
  }

  /** One drawn line: a solid bar when yang, highlighted when changing,
      and labelled with the line type its total names. */
  datatype LineView = LineView(yang: bool, changing: bool, lineType: Option<LineType>)

  function ViewLine(l: Line): (v: LineView)
    ensures v.lineType.Some? <==> 6 <= l.total <= 9
    ensures v.lineType.Some? ==> LineTypeValue(v.lineType.value) == l.total
  {
    LineView(IsYang(l.total), l.isChanging, ClassifyTotal(l.total))
  }

  /** The bar drawn for a line agrees with the line's character in the
      hexagram key, and for a tossed line the highlight marks exactly the
      old lines (totals 6 and 9). */
  lemma ViewAgreesWithKey(lines: seq<Line>, i: nat)
    requires i < |lines|
    ensures ViewLine(lines[i]).yang <==> HexagramKey(lines)[i] == '1'
    ensures WellFormed(lines[i]) ==>
              (ViewLine(lines[i]).changing <==> ViewLine(lines[i]).lineType in {Some(OldYin), Some(OldYang)})
  {
  }

  /** `TrigramBlock`: the rows top line first, and the trigram named beside
      the block once it holds exactly three lines. */
  datatype BlockView = BlockView(rows: seq<LineView>, caption: Option<Trigram>, isUpper: bool)

  function ViewRows(lines: seq<Line>): (rows: seq<LineView>)
    ensures |rows| == |lines|
    ensures forall i :: 0 <= i < |lines| ==> rows[i] == ViewLine(lines[|lines| - 1 - i])
  {
    var top := Reverse(lines);
    seq(|top|, i requires 0 <= i < |top| => ViewLine(top[i]))
  }

  function ViewBlock(lines: seq<Line>, isUpper: bool): (b: BlockView)
    ensures |b.rows| == |lines|
    ensures b.caption.Some? <==> |lines| == 3
    ensures b.caption.Some? ==> HexagramKey(lines) in Trigrams && b.caption.value == Trigrams[HexagramKey(lines)]
    ensures b.isUpper == isUpper
  {
    var trigram := GetTrigram(lines);
    BlockView(ViewRows(lines), if |lines| == 3 then trigram else None, isUpper)
  }

  /** The whole panel: the upper block above the lower one, a gap between
      them when both are present, and a placeholder while nothing is cast. */
  datatype DisplayView = DisplayView(
    upper: Option<BlockView>, gap: bool, lower: Option<BlockView>, placeholder: bool)

  function Display(lines: seq<Line>): (d: DisplayView)
    ensures d.upper.Some? <==> |lines| > 3
    ensures d.lower.Some? <==> |lines| > 0
    ensures d.gap <==> |lines| > 3
    ensures d.placeholder <==> lines == []
    ensures d.upper.Some? ==> d.upper.value.isUpper && |d.upper.value.rows| == |lines| - 3
    ensures d.lower.Some? ==> !d.lower.value.isUpper && |d.lower.value.rows| == Min(3, |lines|)
  {
    var lower := LowerLines(lines);
    var upper := UpperLines(lines);
    DisplayView(
      if |upper| > 0 then Some(ViewBlock(upper, true)) else None,
      |upper| > 0 && |lower| > 0,
      if |lower| > 0 then Some(ViewBlock(lower, false)) else None,
      |lines| == 0)
  }

  /** The rows of the panel read from top to bottom. */
  function PanelRows(d: DisplayView): seq<LineView>
  {
    (if d.upper.Some? then d.upper.value.rows else []) + (if d.lower.Some? then d.lower.value.rows else [])
  }

  /** Read from the top, the panel shows every cast line exactly once, the
      latest line first and the first line at the bottom. */
  lemma PanelShowsStackTopDown(lines: seq<Line>)
    ensures |PanelRows(Display(lines))| == |lines|
    ensures forall i :: 0 <= i < |lines| ==> PanelRows(Display(lines))[i] == ViewLine(lines[|lines| - 1 - i])
  {
    var lower := LowerLines(lines);
    var upper := UpperLines(lines);
    var d := Display(lines);
    assert (if d.upper.Some? then d.upper.value.rows else []) == ViewRows(upper);
    assert (if d.lower.Some? then d.lower.value.rows else []) == ViewRows(lower);
    var up := ViewRows(upper);
    var down := ViewRows(lower);
    assert PanelRows(d) == up + down;
    forall i | 0 <= i < |lines|
      ensures (up + down)[i] == ViewLine(lines[|lines| - 1 - i])
    {
      if i < |upper| {
        assert lines[|lines| - 1 - i] == upper[|upper| - 1 - i];
      } else {
        assert lines[|lines| - 1 - i] == lower[|lower| - 1 - (i - |upper|)];
      }
    }
  }

  /** With all six lines cast, each block is labelled with the trigram its
      half of the key names. */
  lemma FullCastLabels(lines: seq<Line>)
    requires |lines| == 6
    ensures HexagramKey(lines)[3..] in Trigrams && HexagramKey(lines)[..3] in Trigrams
    ensures Display(lines).upper == Some(BlockView(ViewRows(lines[3..]), Some(Trigrams[HexagramKey(lines)[3..]]), true))
    ensures Display(lines).lower == Some(BlockView(ViewRows(lines[..3]), Some(Trigrams[HexagramKey(lines)[..3]]), false))
  {
    KeySplits(lines);
  }

  /** From the third line on, while the cast is still under way, the lower
      block is labelled with the trigram of the first three lines, and the
      upper block gets a label only once all six lines are there. */
  lemma PartialCastLabels(lines: seq<Line>)
    requires 3 <= |lines|
    ensures HexagramKey(lines)[..3] in Trigrams
    ensures Display(lines).lower == Some(BlockView(ViewRows(lines[..3]), Some(Trigrams[HexagramKey(lines)[..3]]), false))
    ensures (Display(lines).upper.Some? && Display(lines).upper.value.caption.Some?) <==> |lines| == 6
  {
    KeySplits(lines);
    TrigramTableComplete(HexagramKey(LowerLines(lines)));
  }
}

=== FILE: iching.dfy ===
/** The divination engine: coin tosses, lines, the parity key of a stack of
    lines, the fixed table of eight trigrams and the first-match lookup in
    the hexagram table. Randomness enters only through `Flips`, three
    booleans standing for three draws of `Math.random() < 0.5`. */
module IChing {
  import opened Wrappers

  const CoinValueHead := 3
  const CoinValueTail := 2

  /** The four line types and the toss totals they are named after. */
  datatype LineType = OldYin | YoungYang | YoungYin | OldYang

  function LineTypeValue(t: LineType): int
  {
    match t
    case OldYin => 6
    case YoungYang => 7
    case YoungYin => 8
    case OldYang => 9
  }

  /** Reads a toss total back as a line type; totals outside 6..9 name no
      line type. */
  function ClassifyTotal(total: int): (r: Option<LineType>)
    ensures r.Some? <==> 6 <= total <= 9
    ensures r.Some? ==> LineTypeValue(r.value) == total
  {
    if total == 6 then Some(OldYin)
    else if total == 7 then Some(YoungYang)
    else if total == 8 then Some(YoungYin)
    else if total == 9 then Some(OldYang)
    else None
  }

  /** The table of line types and the classifier are inverse to each other. */
  lemma LineTypeRoundTrip(t: LineType, total: int)
    ensures ClassifyTotal(LineTypeValue(t)) == Some(t)
    ensures ClassifyTotal(total).Some? ==> LineTypeValue(ClassifyTotal(total).value) == total
  {
  }

  /** One coin; `belowHalf` is the outcome of `Math.random() < 0.5`. */
  function TossOneCoin(belowHalf: bool): (v: int)
    ensures v == CoinValueTail || v == CoinValueHead
    ensures v == CoinValueTail <==> belowHalf
  {
    if belowHalf then CoinValueTail else CoinValueHead
  }

  /** The three random draws behind one line, in toss order. */
  datatype Flips = Flips(first: bool, second: bool, third: bool)

  /** A cast line: the sum of its three coins, the coins themselves and
      whether it is a changing line. */
  datatype Line = Line(total: int, coins: seq<int>, isChanging: bool)

  /** Number of heads among three draws (a draw of false is a head). */
  function HeadCount(f: Flips): nat
  {
    (if f.first then 0 else 1) + (if f.second then 0 else 1) + (if f.third then 0 else 1)
  }

  /** `coins.reduce((a, b) => a + b, 0)`. */
  function Sum(xs: seq<int>): int
  {
    if xs == [] then 0 else Sum(xs[..|xs| - 1]) + xs[|xs| - 1]
  }

  lemma SumOfThree(xs: seq<int>)
    requires |xs| == 3
    ensures Sum(xs) == xs[0] + xs[1] + xs[2]
  {
    assert xs[..2][..1] == [xs[0]];
    assert [xs[0]][..0] == [];
    assert Sum([xs[0]]) == xs[0];
    assert Sum(xs[..2]) == xs[0] + xs[1];
  }

  predicate IsChangingTotal(total: int)
  {
    total == 6 || total == 9
  }

  /** A line as `tossLine` produces it: three coins worth 2 or 3, the total
      their sum, the changing flag set for 6 and 9. */
  predicate WellFormed(l: Line)
  {
    && |l.coins| == 3
    && (forall i :: 0 <= i < 3 ==> l.coins[i] == CoinValueTail || l.coins[i] == CoinValueHead)
    && l.total == Sum(l.coins)
    && l.isChanging == IsChangingTotal(l.total)
  }

  function TossLine(f: Flips): (l: Line)
    ensures WellFormed(l)
    ensures 6 <= l.total <= 9
    ensures l.total == 6 + HeadCount(f)
    ensures l.isChanging <==> l.total == 6 || l.total == 9
    ensures l.total == 6 <==> f.first && f.second && f.third
    ensures l.total == 9 <==> !f.first && !f.second && !f.third
  {
    var coins := [TossOneCoin(f.first), TossOneCoin(f.second), TossOneCoin(f.third)];
    SumOfThree(coins);
    var total := Sum(coins);
    Line(total, coins, total == 6 || total == 9)
  }

  /** The draws that produce a given well-formed line. */
  function FlipsOf(l: Line): Flips
    requires WellFormed(l)
  {
    Flips(l.coins[0] == CoinValueTail, l.coins[1] == CoinValueTail, l.coins[2] == CoinValueTail)
  }

  /** Tossing is a bijection between the eight draw triples and the
      well-formed lines. */
  lemma TossLineBijective(f: Flips, l: Line)
    ensures FlipsOf(TossLine(f)) == f
    ensures WellFormed(l) ==> TossLine(FlipsOf(l)) == l
  {
    if WellFormed(l) {
      var m := TossLine(FlipsOf(l));
      assert m.coins == l.coins;
    }
  }

  /** Every triple of draws, each exactly once. */
  const AllFlips: seq<Flips> := [
    Flips(true, true, true), Flips(true, true, false),
    Flips(true, false, true), Flips(true, false, false),
    Flips(false, true, true), Flips(false, true, false),
    Flips(false, false, true), Flips(false, false, false)
  ]

  lemma AllFlipsEnumerates(f: Flips)
    ensures |AllFlips| == 8
    ensures f in AllFlips
    ensures forall i, j :: 0 <= i < j < |AllFlips| ==> AllFlips[i] != AllFlips[j]
  {
  }

  /** How many of the given draw triples yield a line with this total.
      The bound is only a helper fact; `TotalDistribution` states the
      counts over all eight triples. */
  function CountTotal(fs: seq<Flips>, total: int): (n: nat)
    ensures n <= |fs|
  {
    if fs == [] then 0
    else (if TossLine(fs[0]).total == total then 1 else 0) + CountTotal(fs[1..], total)
  }

  /** With the eight equally likely draw triples, totals 6, 7, 8 and 9 arise
      from 1, 3, 3 and 1 of them, and no other total arises. */
  lemma TotalDistribution(t: int)
    ensures CountTotal(AllFlips, 6) == 1
    ensures CountTotal(AllFlips, 7) == 3
    ensures CountTotal(AllFlips, 8) == 3
    ensures CountTotal(AllFlips, 9) == 1
    ensures !(6 <= t <= 9) ==> CountTotal(AllFlips, t) == 0
  {
    CountOldYin();
    CountYoungYang();
    CountYoungYin();
    CountOldYang();
    if !(6 <= t <= 9) {
      CountOutside(AllFlips, t);
    }
  }

  lemma CountOldYin()
    ensures CountTotal(AllFlips, 6) == 1
  {
  }

  lemma CountYoungYang()
    ensures CountTotal(AllFlips, 7) == 3
  {
  }

  lemma CountYoungYin()
    ensures CountTotal(AllFlips, 8) == 3
  {
  }

  lemma CountOldYang()
    ensures CountTotal(AllFlips, 9) == 1
  {
  }

  lemma {:induction false} CountOutside(fs: seq<Flips>, t: int)
    requires !(6 <= t <= 9)
    ensures CountTotal(fs, t) == 0
  {
    if fs != [] {
      CountOutside(fs[1..], t);
    }
  }

  /** A line is yang when its total is odd. (JavaScript's `%` truncates while
      Dafny's is Euclidean, but both are non-zero exactly on odd numbers.) */
  predicate IsYang(total: int)
  {
    total % 2 != 0
  }

  function YangBit(total: int): char
  {
    if IsYang(total) then '1' else '0'
  }

  predicate IsBinaryKey(k: string)
  {
    forall i :: 0 <= i < |k| ==> k[i] == '0' || k[i] == '1'
  }

  /** `getHexagramKey`: one character per line, bottom line first, '1' for
      yang and '0' for yin. */
  function HexagramKey(lines: seq<Line>): (k: string)
    ensures |k| == |lines|
    ensures IsBinaryKey(k)
    ensures forall i :: 0 <= i < |lines| ==> (k[i] == '1' <==> IsYang(lines[i].total))
  {
    if lines == [] then [] else [YangBit(lines[0].total)] + HexagramKey(lines[1..])
  }

  /** The key of a stack is the key of its lower part followed by the key of
      its upper part. */
  lemma {:induction false} HexagramKeyConcat(a: seq<Line>, b: seq<Line>)
    ensures HexagramKey(a + b) == HexagramKey(a) + HexagramKey(b)
    decreases |a|
  {
    if a != [] {
      assert (a + b)[1..] == a[1..] + b;
      HexagramKeyConcat(a[1..], b);
    }
  }

  lemma HexagramKeyExample()
    ensures HexagramKey([Line(7, [3, 2, 2], false), Line(8, [3, 3, 2], false),
                         Line(9, [3, 3, 3], true), Line(6, [2, 2, 2], true),
                         Line(7, [2, 3, 2], false), Line(8, [2, 3, 3], false)]) == "101010"
  {
  }

  datatype Trigram = Trigram(key: string, name: string, nature: string, zh: string, natureZh: string)

  /** `TRIGRAMS`, keyed by the bottom-first parity key of three lines. */
  const Trigrams: map<string, Trigram> := map[
    "111" := Trigram("qian", "Qian", "Heaven", "乾", "天"),
    "110" := Trigram("dui", "Dui", "Lake", "兑", "泽"),
    "101" := Trigram("li", "Li", "Fire", "离", "火"),
    "100" := Trigram("zhen", "Zhen", "Thunder", "震", "雷"),
    "011" := Trigram("xun", "Xun", "Wind", "巽", "风"),
    "010" := Trigram("kan", "Kan", "Water", "坎", "水"),
    "001" := Trigram("gen", "Gen", "Mountain", "艮", "山"),
    "000" := Trigram("kun", "Kun", "Earth", "坤", "地")
  ]

  /** The trigram table has a record for every three-character key and no
      other key, and no two keys share a record. */
  lemma TrigramTableComplete(k: string)
    ensures k in Trigrams <==> |k| == 3 && IsBinaryKey(k)
    ensures forall k1, k2 :: k1 in Trigrams && k2 in Trigrams && k1 != k2 ==> Trigrams[k1] != Trigrams[k2]
  {
    if |k| == 3 && IsBinaryKey(k) {
      assert k == [k[0], k[1], k[2]];
    }
  }

  /** `getTrigram`: defined exactly for three lines. */
  function GetTrigram(lines: seq<Line>): (r: Option<Trigram>)
    ensures r.Some? <==> |lines| == 3
    ensures r.Some? ==> HexagramKey(lines) in Trigrams && r.value == Trigrams[HexagramKey(lines)]
  {
    if |lines| != 3 then None
    else
      var key := HexagramKey(lines);
      TrigramTableComplete(key);
      Some(Trigrams[key])
  }

  /** Three-line stacks with different parity patterns name different
      trigrams. */
  lemma GetTrigramInjective(a: seq<Line>, b: seq<Line>)
    requires GetTrigram(a).Some? && GetTrigram(a) == GetTrigram(b)
    ensures HexagramKey(a) == HexagramKey(b)
  {
    TrigramTableComplete(HexagramKey(a));
  }

  /** A record of the hexagram dataset. */
  datatype Hexagram = Hexagram(
    number: int, name: string, english: string,
    binary: string, description: string, descriptionZh: string)

  /** `hexagrams.findIndex(h => h.binary === key)` as an optional index. */
  function FindBinary(table: seq<Hexagram>, key: string): (r: Option<nat>)
    ensures r.Some? ==> r.value < |table| && table[r.value].binary == key
    ensures r.Some? ==> forall j :: 0 <= j < r.value ==> table[j].binary != key
    ensures r.None? ==> forall j :: 0 <= j < |table| ==> table[j].binary != key
  {
    if table == [] then None
    else if table[0].binary == key then Some(0)
    else match FindBinary(table[1..], key)
      case None => None
      case Some(i) => Some(i + 1)
  }

  /** `lookupHexagram`: the first record whose binary equals the key of the
      lines, or nothing. */
  function LookupHexagram(table: seq<Hexagram>, lines: seq<Line>): (r: Option<Hexagram>)
    ensures r.Some? <==> exists i :: 0 <= i < |table| && table[i].binary == HexagramKey(lines)
    ensures r.Some? ==> r.value.binary == HexagramKey(lines)
    ensures r.Some? ==> exists i :: 0 <= i < |table| && table[i] == r.value
                          && forall j :: 0 <= j < i ==> table[j].binary != HexagramKey(lines)
  {
    match FindBinary(table, HexagramKey(lines))
    case None => None
    case Some(i) => Some(table[i])
  }

  /** The dataset holds a record for every six-character key. */
  ghost predicate Complete(table: seq<Hexagram>)
  {
    forall k :: |k| == 6 && IsBinaryKey(k) ==> exists i :: 0 <= i < |table| && table[i].binary == k
  }

  /** With a complete dataset every six-line cast resolves. */
  lemma CompleteTableResolves(table: seq<Hexagram>, lines: seq<Line>)
    requires Complete(table)
    requires |lines| == 6
    ensures LookupHexagram(table, lines).Some?
  {
    var k := HexagramKey(lines);
    assert |k| == 6 && IsBinaryKey(k);
  }

  /** With six-character binaries only, a stack of any other height
      resolves to nothing. */
  lemma WrongHeightMisses(table: seq<Hexagram>, lines: seq<Line>)
    requires forall i :: 0 <= i < |table| ==> |table[i].binary| == 6
    requires |lines| != 6
    ensures LookupHexagram(table, lines).None?
  {
  }
}

=== FILE: jstext.dfy ===
/** The few JavaScript string primitives the application relies on:
    white-space classification (shared by `String.prototype.trim` and the
    regular-expression class `\s`), `trim`, `substring(0, n)` and
    array reversal. Characters stand for UTF-16 code units; surrogate
    pairs are not modelled. */
module JsText {

  /** ECMAScript WhiteSpace and LineTerminator code points: exactly the
      characters `trim()` removes and `\s` matches. */
  predicate IsSpace(c: char)
  {
    || c == '\t' || c == '\n' || c == '\U{B}' || c == '\U{C}' || c == '\r'
    || c == ' ' || c == '\U{A0}' || c == '\U{1680}'
    || ('\U{2000}' <= c <= '\U{200A}')
    || c == '\U{2028}' || c == '\U{2029}' || c == '\U{202F}'
    || c == '\U{205F}' || c == '\U{3000}' || c == '\U{FEFF}'
  }

  /** The regular-expression class `\d`: ASCII digits only. */
  predicate IsDigit(c: char)
  {
    '0' <= c <= '9'
  }

  predicate AllSpace(s: string)
  {
    forall i :: 0 <= i < |s| ==> IsSpace(s[i])
  }

  /** Removes leading white space: the result is the longest suffix of `s`
      that does not start with white space. */
  function TrimStart(s: string): (r: string)
    ensures |r| <= |s| && r == s[|s| - |r|..]
    ensures AllSpace(s[..|s| - |r|])
    ensures r == [] || !IsSpace(r[0])
    decreases |s|
  {
    if |s| > 0 && IsSpace(s[0]) then
      var r := TrimStart(s[1..]);
      var n := |s| - |r|;
      forall k | 0 <= k < n ensures IsSpace(s[..n][k]) {
        if k > 0 { assert s[..n][k] == s[1..][..n - 1][k - 1]; }
      }
      r
    else s
  }

  /** Removes trailing white space: the result is the longest prefix of `s`
      that does not end with white space. */
  function TrimEnd(s: string): (r: string)
    ensures |r| <= |s| && r == s[..|r|]
    ensures AllSpace(s[|r|..])
    ensures r == [] || !IsSpace(r[|r| - 1])
    decreases |s|
  {
    if |s| > 0 && IsSpace(s[|s| - 1]) then
      var r := TrimEnd(s[..|s| - 1]);
      assert s[|r|..] == s[..|s| - 1][|r|..] + [s[|s| - 1]];
      r
    else s
  }

  /** `String.prototype.trim`. */
  function Trim(s: string): (r: string)
    ensures |r| <= |s|
    ensures r == [] <==> AllSpace(s)
    ensures r != [] ==> !IsSpace(r[0]) && !IsSpace(r[|r| - 1])
  {
    var t := TrimStart(s);
    assert AllSpace(t) ==> AllSpace(s) by {
      if AllSpace(t) {
        assert s == s[..|s| - |t|] + t;
      }
    }
    TrimEnd(t)
  }

  /** Trim strips exactly the white-space padding around a core that
      neither starts nor ends with white space. */
  lemma {:induction false} TrimPadded(pre: string, core: string, post: string)
    requires AllSpace(pre) && AllSpace(post)
    requires core == [] || (!IsSpace(core[0]) && !IsSpace(core[|core| - 1]))
    ensures Trim(pre + core + post) == core
  {
    if core == [] {
      assert pre + core == pre;
      AllSpaceConcat(pre, post);
      return;
    }
    TrimStartPadded(pre, core + post);
    Associative(pre, core, post);
    TrimEndPadded(core, post);
  }

  lemma {:induction false} TrimStartPadded(pre: string, rest: string)
    requires AllSpace(pre)
    requires rest == [] || !IsSpace(rest[0])
    ensures TrimStart(pre + rest) == rest
    decreases |pre|
  {
    if pre != [] {
      assert (pre + rest)[1..] == pre[1..] + rest;
      TrimStartPadded(pre[1..], rest);
    }
  }

  lemma {:induction false} TrimEndPadded(rest: string, post: string)
    requires AllSpace(post)
    requires rest == [] || !IsSpace(rest[|rest| - 1])
    requires rest != [] || post == []
    ensures TrimEnd(rest + post) == rest
    decreases |post|
  {
    if post != [] {
      var s := rest + post;
      assert s[..|s| - 1] == rest + post[..|post| - 1];
      TrimEndPadded(rest, post[..|post| - 1]);
    }
  }

  /** Every string is its trimmed core padded with white space on both
      sides. */
  lemma TrimSplits(s: string) returns (lead: string, trail: string)
    ensures AllSpace(lead) && AllSpace(trail)
    ensures s == lead + Trim(s) + trail
  {
    var t := TrimStart(s);
    var core := TrimEnd(t);
    lead, trail := s[..|s| - |t|], t[|core|..];
    Rejoin(t, |core|);
    Rejoin(s, |s| - |t|);
    Associative(lead, core, trail);
  }

  lemma AllSpaceConcat(a: string, b: string)
    requires AllSpace(a) && AllSpace(b)
    ensures AllSpace(a + b)
  {
    forall k | 0 <= k < |a + b| ensures IsSpace((a + b)[k]) {
      if k >= |a| { assert (a + b)[k] == b[k - |a|]; }
    }
  }

  lemma Rejoin<T>(xs: seq<T>, n: nat)
    requires n <= |xs|
    ensures xs[..n] + xs[n..] == xs
  {
  }

  lemma Associative<T>(a: seq<T>, b: seq<T>, c: seq<T>)
    ensures a + (b + c) == a + b + c
  {
  }

  /** Trimming twice is trimming once. */
  lemma TrimIdempotent(s: string)
    ensures Trim(Trim(s)) == Trim(s)
  {
    var t := Trim(s);
    if t != [] {
      TrimPadded([], t, []);
      assert [] + t + [] == t;
    }
  }

  function Min(a: int, b: int): int
  {
    if a <= b then a else b
  }

  /** `s.substring(0, n)` for a non-negative `n`: the first `n` characters,
      or all of `s` when it is shorter. */
  function Take(s: string, n: nat): (r: string)
    ensures |r| == Min(n, |s|)
    ensures r <= s
  {
    s[..Min(n, |s|)]
  }

  /** `[...xs].reverse()`. */
  function Reverse<T>(xs: seq<T>): (r: seq<T>)
    ensures |r| == |xs|
    ensures forall i :: 0 <= i < |xs| ==> r[i] == xs[|xs| - 1 - i]
  {
    if xs == [] then [] else Reverse(xs[1..]) + [xs[0]]
  }

  lemma ReverseInvolution<T>(xs: seq<T>)
    ensures Reverse(Reverse(xs)) == xs
  {
  }
}

=== FILE: question_input.dfy ===
/** The question form: a draft the user edits or fills from a suggestion,
    a submit button that is disabled while the draft is blank, and a submit
    handler that passes the draft on only when it is not blank. */
module QuestionInput {
  import opened Wrappers
  import opened JsText

  /** `question.trim()` is truthy: the draft holds a character other than
      white space. */
  predicate NonBlank(draft: string)
  {
    Trim(draft) != []
  }

  /** `handleSubmit`: the draft to confirm, if any. The question confirmed
      is the draft as typed, white space included. */
  function Submit(draft: string): (r: Option<string>)
    ensures r.Some? <==> !AllSpace(draft)
    ensures r.Some? ==> r.value == draft
  {
    if NonBlank(draft) then Some(draft) else None
  }

  /** The submit button's `disabled` flag. */
  predicate SubmitDisabled(draft: string)
  {
    !NonBlank(draft)
  }

  /** The button is disabled exactly when pressing it would do nothing. */
  lemma DisabledIffIgnored(draft: string)
    ensures SubmitDisabled(draft) <==> Submit(draft).None?
    ensures SubmitDisabled(draft) <==> AllSpace(draft)
  {
  }

  /** Padding a confirmed question with white space neither changes whether
      it is accepted nor what its trimmed text is. */
  lemma PaddingIrrelevant(pre: string, draft: string, post: string)
    requires AllSpace(pre) && AllSpace(post)
    ensures Submit(pre + draft + post).Some? <==> Submit(draft).Some?
    ensures Trim(pre + draft + post) == Trim(draft)
  {
    var core := Trim(draft);
    var lead, trail := TrimSplits(draft);
    AllSpaceConcat(pre, lead);
    AllSpaceConcat(trail, post);
    var pl, tp := pre + lead, trail + post;
    calc {
      pre + draft + post;
      pre + (lead + core + trail) + post;
      { Associative(pre, lead + core, trail); Associative(pre, lead, core); }
      pl + core + trail + post;
      { Associative(pl + core, trail, post); }
      pl + core + tp;
    }
    TrimPadded(pl, core, tp);
  }

  /** Clicking a suggestion button: the draft becomes that suggestion,
      whatever was typed before. */
  function ChooseSuggestion(suggestions: seq<string>, i: nat, draft: string): (r: string)
    requires i < |suggestions|
    ensures r == suggestions[i] && r in suggestions
  {
    suggestions[i]
  }

  /** A suggestion that is not blank, once chosen, is confirmed verbatim. */
  lemma SuggestionSubmits(suggestions: seq<string>, i: nat, draft: string)
    requires i < |suggestions| && !AllSpace(suggestions[i])
    ensures Submit(ChooseSuggestion(suggestions, i, draft)) == Some(suggestions[i])
  {
  }
}

=== FILE: regex.dfy ===
/** The fragment of JavaScript regular expressions the result view uses:
    anchored patterns built from literal characters and words, `\d+` and
    `\s*`, with alternatives and the `i` flag, together with the leftmost
    search and the two forms of `String.prototype.replace` with an empty
    replacement (first match only, and every match with the `g` flag).

    Matching works on positions of an unchanging string: a match at `pos`
    is given by the position where it ends. A greedy `\d+` or `\s*` is
    modelled as consuming its whole run and never giving characters back.
    That is exact for every pattern here, because what follows each run
    starts with a character the run cannot contain. */
module Regex {
  import opened Wrappers
  import opened JsText

  datatype Atom =
    | Lit(c: char)     // the character itself
    | Word(w: string)  // the characters of `w`, in order
    | Digits           // \d+
    | Spaces           // \s*

  /** Alternatives tried in order, each a sequence of atoms; `ignoreCase`
      is the `i` flag. */
  datatype Pattern = Pattern(alternatives: seq<seq<Atom>>, ignoreCase: bool)

  function AsciiLower(c: char): char
  {
    if 'A' <= c <= 'Z' then (c as int + 32) as char else c
  }

  predicate IsAsciiLetter(c: char)
  {
    ('A' <= c <= 'Z') || ('a' <= c <= 'z')
  }

  /** Whether text character `c` matches pattern character `pc`. Under the
      `i` flag a non-Unicode expression compares upper-cased characters but
      never lets a character outside ASCII match one inside it, so for the
      patterns here the flag amounts to ASCII case folding. */
  predicate CharMatches(c: char, pc: char, ignoreCase: bool)
  {
    c == pc || (ignoreCase && AsciiLower(c) == AsciiLower(pc))
  }

  predicate WordAt(w: string, ignoreCase: bool, s: string, pos: nat)
  {
    && pos + |w| <= |s|
    && forall j :: 0 <= j < |w| ==> CharMatches(s[pos + j], w[j], ignoreCase)
  }

  /** End of the run of digits starting at `pos`. */
  function DigitsEnd(s: string, pos: nat): (e: nat)
    requires pos <= |s|
    ensures pos <= e <= |s|
    ensures forall j :: pos <= j < e ==> IsDigit(s[j])
    ensures e == |s| || !IsDigit(s[e])
    decreases |s| - pos
  {
    if pos < |s| && IsDigit(s[pos]) then DigitsEnd(s, pos + 1) else pos
  }

  /** End of the run of white space starting at `pos`. */
  function SpacesEnd(s: string, pos: nat): (e: nat)
    requires pos <= |s|
    ensures pos <= e <= |s|
    ensures forall j :: pos <= j < e ==> IsSpace(s[j])
    ensures e == |s| || !IsSpace(s[e])
    decreases |s| - pos
  {
    if pos < |s| && IsSpace(s[pos]) then SpacesEnd(s, pos + 1) else pos
  }

  function AtomEnd(a: Atom, ignoreCase: bool, s: string, pos: nat): (r: Option<nat>)
    requires pos <= |s|
    ensures r.Some? ==> pos <= r.value <= |s|
    ensures r.Some? && a.Lit? ==> r.value == pos + 1 && CharMatches(s[pos], a.c, ignoreCase)
  {
    match a
    case Lit(c) => if pos < |s| && CharMatches(s[pos], c, ignoreCase) then Some(pos + 1) else None
    case Word(w) => if WordAt(w, ignoreCase, s, pos) then Some(pos + |w|) else None
    case Digits => var e := DigitsEnd(s, pos); if e > pos then Some(e) else None
    case Spaces => Some(SpacesEnd(s, pos))
  }

  /** End of the match of `atoms[i..]` starting at `pos`. */
  function SeqEnd(atoms: seq<Atom>, i: nat, ignoreCase: bool, s: string, pos: nat): (r: Option<nat>)
    requires i <= |atoms| && pos <= |s|
    ensures r.Some? ==> pos <= r.value <= |s|
    decreases |atoms| - i
  {
    if i == |atoms| then Some(pos)
    else match AtomEnd(atoms[i], ignoreCase, s, pos)
      case None => None
      case Some(q) => SeqEnd(atoms, i + 1, ignoreCase, s, q)
  }

  /** End of the match of the first of `alts[j..]` that matches at `pos`. */
  function AltEnd(alts: seq<seq<Atom>>, j: nat, ignoreCase: bool, s: string, pos: nat): (r: Option<nat>)
    requires j <= |alts| && pos <= |s|
    ensures r.Some? ==> pos <= r.value <= |s|
    decreases |alts| - j
  {
    if j == |alts| then None
    else match SeqEnd(alts[j], 0, ignoreCase, s, pos)
      case Some(e) => Some(e)
      case None => AltEnd(alts, j + 1, ignoreCase, s, pos)
  }

  /** Where the match of `re` starting at `pos` ends, if it matches there. */
  function MatchEnd(re: Pattern, s: string, pos: nat): (r: Option<nat>)
    requires pos <= |s|
    ensures r.Some? ==> pos <= r.value <= |s|
  {
    AltEnd(re.alternatives, 0, re.ignoreCase, s, pos)
  }

  predicate MatchesAt(re: Pattern, s: string, pos: nat)
    requires pos <= |s|
  {
    MatchEnd(re, s, pos).Some?
  }

  /** The expression never matches the empty string: every alternative
      starts with a literal character. */
  predicate NeverEmpty(re: Pattern)
  {
    forall j :: 0 <= j < |re.alternatives| ==>
      |re.alternatives[j]| > 0 && re.alternatives[j][0].Lit?
  }

  /** Every alternative starts with the literal `c`, a character without
      case, so every match starts with `c`. */
  predicate Opens(re: Pattern, c: char)
  {
    && !IsAsciiLetter(c)
    && forall j :: 0 <= j < |re.alternatives| ==>
         |re.alternatives[j]| > 0 && re.alternatives[j][0] == Lit(c)
  }

  lemma {:induction false} AltEndOpens(re: Pattern, j: nat, s: string, pos: nat)
    requires NeverEmpty(re) && j <= |re.alternatives| && pos <= |s|
    requires AltEnd(re.alternatives, j, re.ignoreCase, s, pos).Some?
    ensures pos < |s|
    ensures exists k :: j <= k < |re.alternatives|
              && CharMatches(s[pos], re.alternatives[k][0].c, re.ignoreCase)
    ensures AltEnd(re.alternatives, j, re.ignoreCase, s, pos).value > pos
    decreases |re.alternatives| - j
  {
    var atoms := re.alternatives[j];
    if SeqEnd(atoms, 0, re.ignoreCase, s, pos).Some? {
      var first := AtomEnd(atoms[0], re.ignoreCase, s, pos);
      assert first.Some?;
      assert SeqEnd(atoms, 0, re.ignoreCase, s, pos) == SeqEnd(atoms, 1, re.ignoreCase, s, pos + 1);
    } else {
      AltEndOpens(re, j + 1, s, pos);
    }
  }

  /** A match of an expression that never matches the empty string is at
      least one character long. */
  lemma NeverEmptyMatch(re: Pattern, s: string, pos: nat)
    requires NeverEmpty(re) && pos <= |s| && MatchesAt(re, s, pos)
    ensures MatchEnd(re, s, pos).value > pos
  {
    AltEndOpens(re, 0, s, pos);
  }

  /** A match of an expression that opens with `c` starts with `c`. */
  lemma OpensMatch(re: Pattern, c: char, s: string, pos: nat)
    requires Opens(re, c) && pos <= |s| && MatchesAt(re, s, pos)
    ensures pos < |s| && s[pos] == c && MatchEnd(re, s, pos).value > pos
  {
    AltEndOpens(re, 0, s, pos);
  }

  lemma NoOpenNoMatch(re: Pattern, c: char, s: string, pos: nat)
    requires Opens(re, c) && pos < |s| && s[pos] != c
    ensures !MatchesAt(re, s, pos)
  {
    if MatchesAt(re, s, pos) {
      OpensMatch(re, c, s, pos);
    }
  }

  /** The leftmost position at or after `from` where `re` matches. */
  function FindFrom(re: Pattern, s: string, from: nat): (r: Option<nat>)
    ensures r.Some? ==> from <= r.value < |s| && MatchesAt(re, s, r.value)
    ensures r.Some? ==> forall k :: from <= k < r.value ==> !MatchesAt(re, s, k)
    ensures r.None? ==> forall k :: from <= k < |s| ==> !MatchesAt(re, s, k)
    decreases |s| - from
  {
    if from >= |s| then None
    else if MatchesAt(re, s, from) then Some(from)
    else FindFrom(re, s, from + 1)
  }

  /** The global removal from `pos` on: every leftmost, non-overlapping
      match is removed, and text already removed is not searched again. */
  function RemoveFrom(re: Pattern, s: string, pos: nat): (r: string)
    requires NeverEmpty(re) && pos <= |s|
    ensures |r| <= |s| - pos
    decreases |s| - pos
  {
    if pos == |s| then []
    else match MatchEnd(re, s, pos)
      case Some(e) =>
        NeverEmptyMatch(re, s, pos);
        RemoveFrom(re, s, e)
      case None => [s[pos]] + RemoveFrom(re, s, pos + 1)
  }

  /** `s.replace(re, '')` with the `g` flag. */
  function RemoveAll(re: Pattern, s: string): (r: string)
    requires NeverEmpty(re)
    ensures |r| <= |s|
  {
    RemoveFrom(re, s, 0)
  }

  /** `s.replace(re, '')` without the `g` flag: only the leftmost match is
      removed. */
  function RemoveFirst(re: Pattern, s: string): (r: string)
    requires NeverEmpty(re)
    ensures |r| <= |s|
  {
    match FindFrom(re, s, 0)
    case None => s
    case Some(i) =>
      NeverEmptyMatch(re, s, i);
      s[..i] + s[MatchEnd(re, s, i).value..]
  }

  /** One step of a sequence match. */
  lemma SeqStep(atoms: seq<Atom>, i: nat, ignoreCase: bool, s: string, pos: nat, q: nat)
    requires i < |atoms| && pos <= |s|
    requires AtomEnd(atoms[i], ignoreCase, s, pos) == Some(q)
    ensures SeqEnd(atoms, i, ignoreCase, s, pos) == SeqEnd(atoms, i + 1, ignoreCase, s, q)
  {
  }

  /** An alternative that fails passes the attempt on to the next one. */
  lemma AltSkip(alts: seq<seq<Atom>>, j: nat, ignoreCase: bool, s: string, pos: nat)
    requires j < |alts| && pos <= |s|
    requires SeqEnd(alts[j], 0, ignoreCase, s, pos).None?
    ensures AltEnd(alts, j, ignoreCase, s, pos) == AltEnd(alts, j + 1, ignoreCase, s, pos)
  {
  }

  /** An alternative that matches decides the match. */
  lemma AltTake(alts: seq<seq<Atom>>, j: nat, ignoreCase: bool, s: string, pos: nat)
    requires j < |alts| && pos <= |s|
    requires SeqEnd(alts[j], 0, ignoreCase, s, pos).Some?
    ensures AltEnd(alts, j, ignoreCase, s, pos) == SeqEnd(alts[j], 0, ignoreCase, s, pos)
  {
  }

  // ---------------------------------------------------------------------
  // Search and replacement laws

  /** The single removal changes the text exactly when the expression
      matches somewhere in it, and then makes it shorter. */
  lemma RemoveFirstChanges(re: Pattern, s: string)
    requires NeverEmpty(re)
    ensures RemoveFirst(re, s) == s <==> forall k :: 0 <= k < |s| ==> !MatchesAt(re, s, k)
    ensures RemoveFirst(re, s) != s ==> |RemoveFirst(re, s)| < |s|
  {
    match FindFrom(re, s, 0)
    case None =>
    case Some(i) =>
      NeverEmptyMatch(re, s, i);
  }

  /** The search finds the first match after a stretch without one. */
  lemma FindFromFirst(re: Pattern, s: string, from: nat, i: nat)
    requires from <= i < |s|
    requires forall k :: from <= k < i ==> !MatchesAt(re, s, k)
    requires MatchesAt(re, s, i)
    ensures FindFrom(re, s, from) == Some(i)
  {
  }

  /** Text without a match is kept by the global removal. */
  lemma {:induction false} RemoveFromNoMatch(re: Pattern, s: string, pos: nat)
    requires NeverEmpty(re) && pos <= |s|
    requires forall k :: pos <= k < |s| ==> !MatchesAt(re, s, k)
    ensures RemoveFrom(re, s, pos) == s[pos..]
    decreases |s| - pos
  {
    if pos < |s| {
      assert !MatchesAt(re, s, pos);
      RemoveFromNoMatch(re, s, pos + 1);
      assert [s[pos]] + s[pos + 1..] == s[pos..];
    }
  }

  /** A stretch free of the opening character passes through the global
      removal unchanged. */
  lemma {:induction false} RemoveFromSkips(re: Pattern, c: char, s: string, i: nat, j: nat)
    requires NeverEmpty(re) && Opens(re, c)
    requires i <= j <= |s|
    requires forall k :: i <= k < j ==> s[k] != c
    ensures RemoveFrom(re, s, i) == s[i..j] + RemoveFrom(re, s, j)
    decreases j - i
  {
    if i < j {
      NoOpenNoMatch(re, c, s, i);
      RemoveFromSkips(re, c, s, i + 1, j);
      assert [s[i]] + s[i + 1..j] == s[i..j];
      Associative([s[i]], s[i + 1..j], RemoveFrom(re, s, j));
    }
  }

  /** The global removal deletes a match and carries on after it. */
  lemma RemoveFromDrops(re: Pattern, s: string, i: nat, e: nat)
    requires NeverEmpty(re) && i <= |s|
    requires MatchEnd(re, s, i) == Some(e)
    ensures RemoveFrom(re, s, i) == RemoveFrom(re, s, e)
  {
    NeverEmptyMatch(re, s, i);
  }

  /** The global removal copies a character that starts no match and
      carries on after it, whatever that character is. With
      `RemoveFromDrops` and the empty tail of `RemoveFromNoMatch` this
      fixes the removal at every position. */
  lemma RemoveFromKeeps(re: Pattern, s: string, i: nat)
    requires NeverEmpty(re) && i < |s| && !MatchesAt(re, s, i)
    ensures RemoveFrom(re, s, i) == [s[i]] + RemoveFrom(re, s, i + 1)
  {
  }

  /** The single removal deletes the first match and nothing else, even
      when copies of the opening character come before it. */
  lemma RemoveFirstAt(re: Pattern, s: string, i: nat, e: nat)
    requires NeverEmpty(re) && i <= |s|
    requires forall k :: 0 <= k < i ==> !MatchesAt(re, s, k)
    requires MatchEnd(re, s, i) == Some(e)
    ensures RemoveFirst(re, s) == s[..i] + s[e..]
  {
    NeverEmptyMatch(re, s, i);
    FindFromFirst(re, s, 0, i);
  }

  /** The single removal deletes the first match after a stretch without
      the opening character, and nothing else. */
  lemma RemoveFirstDrops(re: Pattern, c: char, s: string, i: nat, e: nat)
    requires NeverEmpty(re) && Opens(re, c) && i <= |s|
    requires forall k :: 0 <= k < i ==> s[k] != c
    requires MatchEnd(re, s, i) == Some(e)
    ensures RemoveFirst(re, s) == s[..i] + s[e..]
  {
    forall k | 0 <= k < i
      ensures !MatchesAt(re, s, k)
    {
      NoOpenNoMatch(re, c, s, k);
    }
    OpensMatch(re, c, s, i);
    FindFromFirst(re, s, 0, i);
  }

  /** Text without the opening character passes through the global
      removal unchanged. */
  lemma RemoveAllWithout(re: Pattern, c: char, s: string)
    requires NeverEmpty(re) && Opens(re, c) && c !in s
    ensures RemoveAll(re, s) == s
  {
    RemoveFromSkips(re, c, s, 0, |s|);
    assert s[0..|s|] == s;
  }

  /** ... and through the single removal. */
  lemma RemoveFirstWithout(re: Pattern, c: char, s: string)
    requires NeverEmpty(re) && Opens(re, c) && c !in s
    ensures RemoveFirst(re, s) == s
  {
    forall k | 0 <= k < |s|
      ensures !MatchesAt(re, s, k)
    {
      NoOpenNoMatch(re, c, s, k);
    }
    RemoveFirstChanges(re, s);
  }

  /** A run of digits from `i` up to a non-digit at `d` is consumed
      exactly. */
  lemma DigitsEndAt(s: string, i: nat, d: nat)
    requires i <= d < |s| && !IsDigit(s[d])
    requires forall j :: i <= j < d ==> IsDigit(s[j])
    ensures DigitsEnd(s, i) == d
  {
  }

  lemma SpacesEndAt(s: string, i: nat, d: nat)
    requires i <= d < |s| && !IsSpace(s[d])
    requires forall j :: i <= j < d ==> IsSpace(s[j])
    ensures SpacesEnd(s, i) == d
  {
  }
}

=== FILE: result_view.dfy ===
/** The result page: which provider configuration a request uses and
    whether one is made at all, how the provider's answer or failure lands
    in the page state, the summary handed to the share card, and the
    pattern shown when the cast names no hexagram in the dataset. The
    request itself is network I/O and enters only as its outcome. */
module ResultView {
  import opened Wrappers
  import opened JsText
  import opened IChing
  import opened Segmenter

  /** A provider name and an API key; an empty key stands for an unset
      one. */
  datatype AiConfig = AiConfig(provider: string, apiKey: string)

  /** The provider and key a request uses: the user's configuration when
      it carries a key, the deployment defaults otherwise. */
  function EffectiveConfig(user: AiConfig, defaults: AiConfig): (c: AiConfig)
    ensures c == user || c == defaults
    ensures c.apiKey == [] <==> user.apiKey == [] && defaults.apiKey == []
    ensures c == user <==> user.apiKey != [] || user == defaults
  {
    if user.apiKey != [] then user else defaults
  }

  /** The request the page sends once the lookup has settled, if any: only
      for a hexagram found in the dataset, and only with a key. */
  function PlannedRequest(hexagram: Option<Hexagram>, user: AiConfig, defaults: AiConfig): (r: Option<AiConfig>)
    ensures r.Some? <==> hexagram.Some? && (user.apiKey != [] || defaults.apiKey != [])
    ensures r.Some? ==> r.value.apiKey != []
    ensures r.Some? && user.apiKey != [] ==> r.value == user
    ensures r.Some? && user.apiKey == [] ==> r.value == defaults
  {
    var c := EffectiveConfig(user, defaults);
    if hexagram.Some? && c.apiKey != [] then Some(c) else None
  }

  /** With the user's own key set, the deployment defaults never reach a
      request. */
  lemma UserKeyWins(hexagram: Option<Hexagram>, user: AiConfig, d1: AiConfig, d2: AiConfig)
    requires user.apiKey != []
    ensures PlannedRequest(hexagram, user, d1) == PlannedRequest(hexagram, user, d2)
  {
  }

  /** The interpretation half of the page state. */
  datatype PageState = PageState(aiResponse: string, summary: string, loading: bool)

  /** What the provider call settles to: a text, or a rejection with its
      message. */
  datatype Outcome = Answer(text: string) | Rejected(message: string)

  const ErrorPrefix := "AI Interpretation Error: "

  /** Sending the request shows the spinner and keeps the texts. */
  function StartRequest(st: PageState): (r: PageState)
    ensures r.loading
    ensures r.aiResponse == st.aiResponse && r.summary == st.summary
  {
    st.(loading := true)
  }

  /** The `.then`, `.catch` and `.finally` handlers together. */
  function Settle(st: PageState, o: Outcome): (r: PageState)
    ensures !r.loading
    ensures o.Answer? ==> Interpretation(r.aiResponse, r.summary) == Segment(o.text)
    ensures o.Rejected? ==> r.summary == st.summary
    ensures o.Rejected? ==> |r.aiResponse| == |ErrorPrefix| + |o.message|
    ensures o.Rejected? ==> r.aiResponse[..|ErrorPrefix|] == ErrorPrefix && r.aiResponse[|ErrorPrefix|..] == o.message
  {
    match o
    case Answer(text) =>
      var seg := Segment(text);
      PageState(seg.reading, seg.summary, false)
    case Rejected(message) =>
      PageState(ErrorPrefix + message, st.summary, false)
  }

  /** Distinct rejections leave distinct error texts. */
  lemma RejectionsDistinguishable(st: PageState, m1: string, m2: string)
    requires m1 != m2
    ensures Settle(st, Rejected(m1)).aiResponse != Settle(st, Rejected(m2)).aiResponse
  {
  }

  const ShareReadingLength := 150

  /** The summary the share card prints: the page's summary, or else the
      first 150 characters of the reading followed by an ellipsis. */
  function ShareSummary(st: PageState): (r: string)
    ensures st.summary != [] ==> r == st.summary
    ensures st.summary == [] ==> |r| == Min(ShareReadingLength, |st.aiResponse|) + |Ellipsis|
    ensures st.summary == [] ==> r[..|r| - |Ellipsis|] <= st.aiResponse && r[|r| - |Ellipsis|..] == Ellipsis
    ensures r != []
  {
    if st.summary != [] then st.summary else Take(st.aiResponse, ShareReadingLength) + Ellipsis
  }

  /** An answer without a summary heading puts the fallback summary, the
      first 100 characters and an ellipsis, on the share card. */
  lemma ShareWithoutMarker(st: PageState, text: string)
    requires !HasMarker(text)
    ensures ShareSummary(Settle(st, Answer(text))) == Take(text, FallbackSummaryLength) + Ellipsis
  {
  }

  /** An answer whose summary section is empty after cleaning puts the
      start of the reading on the share card instead. */
  lemma ShareEmptySummary(st: PageState, text: string)
    ensures Segment(text).summary == [] ==>
      ShareSummary(Settle(st, Answer(text))) == Take(Segment(text).reading, ShareReadingLength) + Ellipsis
  {
  }

  /** The pattern printed for a cast that names no hexagram: one
      character per line, top line first. */
  function UnknownPattern(lines: seq<Line>): (r: string)
    ensures |r| == |lines|
    ensures IsBinaryKey(r)
    ensures forall i :: 0 <= i < |lines| ==> (r[i] == '1' <==> IsYang(lines[|lines| - 1 - i].total))
  {
    var bits := seq(|lines|, i requires 0 <= i < |lines| => YangBit(lines[i].total));
    Reverse(bits)
  }

  /** The printed pattern is the binary key read backwards, and reading it
      backwards again gives the key. */
  lemma PatternIsReversedKey(lines: seq<Line>)
    ensures UnknownPattern(lines) == Reverse(HexagramKey(lines))
    ensures Reverse(UnknownPattern(lines)) == HexagramKey(lines)
  {
    ReverseInvolution(HexagramKey(lines));
  }

  /** `lines.map(l => l.total)`. */
  function Totals(lines: seq<Line>): (r: seq<int>)
    ensures |r| == |lines| && forall i :: 0 <= i < |lines| ==> r[i] == lines[i].total
  {
    seq(|lines|, i requires 0 <= i < |lines| => lines[i].total)
  }

  /** What the page shows once the lookup has settled. */
  datatype Page =
    | Unknown(key: string, pattern: string, rawTotals: seq<int>)
    | Found(hexagram: Hexagram, request: Option<AiConfig>)

  function ShowResult(table: seq<Hexagram>, lines: seq<Line>, user: AiConfig, defaults: AiConfig): (p: Page)
    ensures p.Unknown? <==> LookupHexagram(table, lines).None?
    ensures p.Unknown? ==> p.key == HexagramKey(lines) && Reverse(p.pattern) == p.key
    ensures p.Unknown? ==> |p.rawTotals| == |lines| && forall i :: 0 <= i < |lines| ==> p.rawTotals[i] == lines[i].total
    ensures p.Found? ==> Some(p.hexagram) == LookupHexagram(table, lines) && p.hexagram.binary == HexagramKey(lines)
    ensures p.Found? ==> p.request == PlannedRequest(Some(p.hexagram), user, defaults)
    ensures p.Found? ==> (p.request.Some? <==> user.apiKey != [] || defaults.apiKey != [])
  {
    match LookupHexagram(table, lines)
    case None =>
      PatternIsReversedKey(lines);
      Unknown(HexagramKey(lines), UnknownPattern(lines), Totals(lines))
    case Some(h) => Found(h, PlannedRequest(Some(h), user, defaults))
  }
}

=== FILE: segmenter.dfy ===
/** The interpretation segmenter of the result view: the provider's free
    text is split at the first summary heading into a reading and a summary,
    and word/character-count annotations are removed from the summary. */
module Segmenter {
  import opened Wrappers
  import opened JsText
  import opened Regex

  /** `###\s*` followed by one of the heading words. */
  function MarkerAlternative(word: string): seq<Atom>
  {
    [Lit('#'), Lit('#'), Lit('#'), Spaces, Word(word)]
  }

  /** `/###\s*(Summary|总结|精炼总结)/i`, with the common prefix
      distributed over the alternatives (the same language, since the
      prefix matches the same way whichever word follows). */
  const SummaryMarker: Pattern :=
    Pattern([MarkerAlternative("Summary"), MarkerAlternative("总结"), MarkerAlternative("精炼总结")], true)

  /** A character-count annotation `\d+字` between brackets. */
  function CharCount(open: char, close: char): Pattern
  {
    Pattern([[Lit(open), Digits, Lit('字'), Lit(close)]], false)
  }

  /** `/（\d+字）/g` */
  const FullwidthCount: Pattern := Pattern([[Lit('（'), Digits, Lit('字'), Lit('）')]], false)

  /** `/\(\d+字\)/g` */
  const AsciiCount: Pattern := Pattern([[Lit('('), Digits, Lit('字'), Lit(')')]], false)

  /** `/\(\d+\s*words\)/i` */
  const WordCount: Pattern := Pattern([[Lit('('), Digits, Spaces, Word("words"), Lit(')')]], true)

  /** Each pattern opens with a fixed character. */
  lemma MarkerOpens()
    ensures Opens(SummaryMarker, '#') && NeverEmpty(SummaryMarker)
  {
  }

  lemma CountsOpen()
    ensures Opens(FullwidthCount, '（') && NeverEmpty(FullwidthCount)
    ensures Opens(AsciiCount, '(') && NeverEmpty(AsciiCount)
    ensures Opens(WordCount, '(') && NeverEmpty(WordCount)
  {
  }

  /** The count-annotation cleaning applied to a trimmed summary: every
      `（N字）`, then every `(N字)`, then the first `(N words)`. */
  function Clean(s: string): (r: string)
    ensures |r| <= |s|
  {
    CountsOpen();
    RemoveFirst(WordCount, RemoveAll(AsciiCount, RemoveAll(FullwidthCount, s)))
  }

  datatype Interpretation = Interpretation(reading: string, summary: string)

  const FallbackSummaryLength := 100
  const Ellipsis := "..."

  predicate HasMarker(text: string)
  {
    exists k :: 0 <= k < |text| && MatchesAt(SummaryMarker, text, k)
  }

  /** Without a marker the reading is the text itself and the summary its
      first 100 characters followed by an ellipsis. */
  function Fallback(text: string): (r: Interpretation)
    ensures r.reading == text
    ensures |r.summary| == Min(FallbackSummaryLength, |text|) + |Ellipsis|
    ensures r.summary[..|r.summary| - |Ellipsis|] <= text
    ensures r.summary[|r.summary| - |Ellipsis|..] == Ellipsis
  {
    Interpretation(text, Take(text, FallbackSummaryLength) + Ellipsis)
  }

  /** With the first marker at `p`: the reading is the trimmed text before
      it, and the summary the cleaned, trimmed text between its end and the
      next marker, or the end of the text. */
  function SplitAt(text: string, p: nat): (r: Interpretation)
    requires FindFrom(SummaryMarker, text, 0) == Some(p)
    ensures |r.reading| <= p < |text| && |r.summary| < |text| - p
    ensures r.reading == [] || (!IsSpace(r.reading[0]) && !IsSpace(r.reading[|r.reading| - 1]))
  {
    var e := MarkerEnd(text, p);
    var stop := SummaryEnd(text, e);
    var before, section := text[..p], text[e..stop];
    assert |before| == p && |section| == stop - e;
    Parts(before, section)
  }

  /** Where the marker matched at `p` ends: after at least its `#`. */
  function MarkerEnd(text: string, p: nat): (e: nat)
    requires p <= |text| && MatchesAt(SummaryMarker, text, p)
    ensures p < e <= |text| && MatchEnd(SummaryMarker, text, p) == Some(e)
  {
    MarkerOpens();
    OpensMatch(SummaryMarker, '#', text, p);
    MatchEnd(SummaryMarker, text, p).value
  }

  /** The reading and the summary cut from the text before the marker and
      from the summary section. */
  function Parts(before: string, section: string): (r: Interpretation)
    ensures |r.reading| <= |before| && |r.summary| <= |section|
    ensures r.reading == [] || (!IsSpace(r.reading[0]) && !IsSpace(r.reading[|r.reading| - 1]))
  {
    Interpretation(Trim(before), Clean(Trim(section)))
  }

  /** Where the summary that starts at `e` stops: at the next marker, or at
      the end of the text. */
  function SummaryEnd(text: string, e: nat): (stop: nat)
    requires e <= |text|
    ensures e <= stop <= |text|
    ensures stop < |text| <==> HasMarkerFrom(text, e)
  {
    match FindFrom(SummaryMarker, text, e)
    case None => |text|
    case Some(q) => q
  }

  predicate HasMarkerFrom(text: string, e: nat)
  {
    exists k :: e <= k < |text| && MatchesAt(SummaryMarker, text, k)
  }

  /** The handler of the provider's text: `text.split(marker)` yields
      [before, word, between, ...], and more than two parts means a marker
      was found. */
  function Segment(text: string): (r: Interpretation)
    ensures !HasMarker(text) ==> r == Fallback(text)
    ensures HasMarker(text) ==> |r.reading| < |text| && |r.summary| < |text|
    ensures HasMarker(text) ==> (r.reading == [] || (!IsSpace(r.reading[0]) && !IsSpace(r.reading[|r.reading| - 1])))
  {
    match FindFrom(SummaryMarker, text, 0)
    case None => Fallback(text)
    case Some(p) => SplitAt(text, p)
  }

  // ---------------------------------------------------------------------
  // What the patterns recognise

  /** The headings the provider is asked to emit. */
  predicate IsMarkerWord(w: string)
  {
    w == "Summary" || w == "总结" || w == "精炼总结"
  }

  /** `###` at `p` and white space up to `q`. */
  predicate HashesAt(s: string, p: nat, q: nat)
  {
    && p + 3 <= q < |s|
    && s[p] == '#' && s[p + 1] == '#' && s[p + 2] == '#'
    && (forall j :: p + 3 <= j < q ==> IsSpace(s[j]))
    && !IsSpace(s[q])
  }

  /** One marker alternative at `p` matches exactly when its word follows
      the hashes and white space. */
  lemma MarkerAlternativeAt(s: string, p: nat, q: nat, word: string)
    requires HashesAt(s, p, q)
    ensures SeqEnd(MarkerAlternative(word), 0, true, s, p)
         == if WordAt(word, true, s, q) then Some(q + |word|) else None
  {
    var atoms := MarkerAlternative(word);
    SpacesEndAt(s, p + 3, q);
    SeqStep(atoms, 0, true, s, p, p + 1);
    SeqStep(atoms, 1, true, s, p + 1, p + 2);
    SeqStep(atoms, 2, true, s, p + 2, p + 3);
    SeqStep(atoms, 3, true, s, p + 3, q);
    if WordAt(word, true, s, q) {
      SeqStep(atoms, 4, true, s, q, q + |word|);
    }
  }

  /** A word does not match where its first character does not. */
  lemma WordMismatch(v: string, s: string, q: nat)
    requires v != [] && q < |s| && !CharMatches(s[q], v[0], true)
    ensures !WordAt(v, true, s, q)
  {
  }

  /** `###`, any white space, then a marker word in any ASCII case is a
      marker, and the match covers exactly those characters. */
  lemma MarkerMatches(s: string, p: nat, q: nat, w: string)
    requires HashesAt(s, p, q) && IsMarkerWord(w) && WordAt(w, true, s, q)
    ensures MatchEnd(SummaryMarker, s, p) == Some(q + |w|)
  {
    var alts := SummaryMarker.alternatives;
    assert alts[0] == MarkerAlternative("Summary");
    assert alts[1] == MarkerAlternative("总结");
    assert alts[2] == MarkerAlternative("精炼总结");
    assert CharMatches(s[q], w[0], true);
    if w == "Summary" {
      MarkerAlternativeAt(s, p, q, w);
      AltTake(alts, 0, true, s, p);
    } else if w == "总结" {
      WordMismatch("Summary", s, q);
      MarkerAlternativeAt(s, p, q, "Summary");
      AltSkip(alts, 0, true, s, p);
      MarkerAlternativeAt(s, p, q, w);
      AltTake(alts, 1, true, s, p);
    } else {
      WordMismatch("Summary", s, q);
      MarkerAlternativeAt(s, p, q, "Summary");
      AltSkip(alts, 0, true, s, p);
      WordMismatch("总结", s, q);
      MarkerAlternativeAt(s, p, q, "总结");
      AltSkip(alts, 1, true, s, p);
      MarkerAlternativeAt(s, p, q, w);
      AltTake(alts, 2, true, s, p);
    }
  }

  /** Conversely, every match of the marker expression is `###`, white
      space and a marker word in some ASCII case, and ends after the word. */
  lemma MarkerShape(s: string, p: nat) returns (q: nat, w: string)
    requires p <= |s| && MatchesAt(SummaryMarker, s, p)
    ensures HashesAt(s, p, q) && IsMarkerWord(w) && WordAt(w, true, s, q)
    ensures MatchEnd(SummaryMarker, s, p) == Some(q + |w|)
  {
    var alts := SummaryMarker.alternatives;
    assert alts[0] == MarkerAlternative("Summary");
    assert alts[1] == MarkerAlternative("总结");
    assert alts[2] == MarkerAlternative("精炼总结");
    if SeqEnd(alts[0], 0, true, s, p).Some? {
      w := "Summary";
      AltTake(alts, 0, true, s, p);
    } else {
      AltSkip(alts, 0, true, s, p);
      if SeqEnd(alts[1], 0, true, s, p).Some? {
        w := "总结";
        AltTake(alts, 1, true, s, p);
      } else {
        AltSkip(alts, 1, true, s, p);
        w := "精炼总结";
        AltTake(alts, 2, true, s, p);
      }
    }
    q := MarkerAlternativeShape(s, p, w);
    MarkerAlternativeAt(s, p, q, w);
  }

  /** A matching marker alternative consists of `###`, white space and its
      word. */
  lemma MarkerAlternativeShape(s: string, p: nat, word: string) returns (q: nat)
    requires p <= |s| && word != [] && SeqEnd(MarkerAlternative(word), 0, true, s, p).Some?
    ensures HashesAt(s, p, q) && WordAt(word, true, s, q)
  {
    var atoms := MarkerAlternative(word);
    assert AtomEnd(atoms[0], true, s, p) == Some(p + 1);
    SeqStep(atoms, 0, true, s, p, p + 1);
    assert AtomEnd(atoms[1], true, s, p + 1) == Some(p + 2);
    SeqStep(atoms, 1, true, s, p + 1, p + 2);
    assert AtomEnd(atoms[2], true, s, p + 2) == Some(p + 3);
    SeqStep(atoms, 2, true, s, p + 2, p + 3);
    q := SpacesEnd(s, p + 3);
    SeqStep(atoms, 3, true, s, p + 3, q);
    assert AtomEnd(atoms[4], true, s, q).Some?;
  }

  /** `v` spells `w` up to ASCII case, as the `i` flag compares them. */
  predicate SpelledAs(v: string, w: string)
  {
    |v| == |w| && WordAt(w, true, v, 0)
  }

  /** A spelling of `w` occurring in `s` at `q` is a match of `w` there. */
  lemma SpelledAt(v: string, w: string, s: string, q: nat)
    requires SpelledAs(v, w) && q + |v| <= |s| && s[q..q + |v|] == v
    ensures WordAt(w, true, s, q)
  {
    forall j | 0 <= j < |w|
      ensures s[q + j] == v[j]
    {
      assert s[q..q + |v|][j] == s[q + j];
    }
  }

  /** Text without `#` holds no marker, so the whole text is the reading. */
  lemma NoHashNoMarker(text: string)
    requires '#' !in text
    ensures !HasMarker(text)
  {
    MarkerOpens();
    forall k | 0 <= k < |text|
      ensures !MatchesAt(SummaryMarker, text, k)
    {
      NoOpenNoMatch(SummaryMarker, '#', text, k);
    }
  }

  // ---------------------------------------------------------------------
  // What the cleaning removes

  predicate AllDigits(s: string)
  {
    forall i :: 0 <= i < |s| ==> IsDigit(s[i])
  }

  /** Text the annotation patterns cannot start in. */
  predicate Plain(s: string)
  {
    '（' !in s && '(' !in s
  }

  /** Text without annotations is left as it is. */
  lemma CleanPlain(s: string)
    requires Plain(s)
    ensures Clean(s) == s
  {
    CountsOpen();
    RemoveAllWithout(FullwidthCount, '（', s);
    RemoveAllWithout(AsciiCount, '(', s);
    RemoveFirstWithout(WordCount, '(', s);
  }

  /** A bracketed character count at `i`, its digits ending at `d`, is
      matched in full. */
  lemma CharCountAt(open: char, close: char, s: string, i: nat, d: nat)
    requires i + 1 < d && d + 1 < |s|
    requires s[i] == open && s[d] == '字' && s[d + 1] == close
    requires forall j :: i + 1 <= j < d ==> IsDigit(s[j])
    ensures MatchEnd(CharCount(open, close), s, i) == Some(d + 2)
  {
    DigitsEndAt(s, i + 1, d);
    var atoms := CharCount(open, close).alternatives[0];
    SeqStep(atoms, 0, false, s, i, i + 1);
    SeqStep(atoms, 1, false, s, i + 1, d);
    SeqStep(atoms, 2, false, s, d, d + 1);
    SeqStep(atoms, 3, false, s, d + 1, d + 2);
  }

  /** The global removal of a character-count pattern deletes such an
      annotation and keeps the text around it. */
  lemma CharCountRemoved(open: char, close: char, a: string, digits: string, b: string)
    requires !IsAsciiLetter(open) && open !in a && open !in b
    requires digits != [] && AllDigits(digits)
    ensures RemoveAll(CharCount(open, close), a + [open] + digits + ['字', close] + b) == a + b
  {
    var re := CharCount(open, close);
    var s := a + [open] + digits + ['字', close] + b;
    var i := |a|;
    var d := i + 1 + |digits|;
    var e := d + 2;
    assert s[i] == open && s[d] == '字' && s[d + 1] == close;
    assert forall j :: i + 1 <= j < d ==> s[j] == digits[j - i - 1];
    CharCountAt(open, close, s, i, d);
    assert s[0..i] == a && s[e..|s|] == b;
    RemoveFromSkips(re, open, s, 0, i);
    RemoveFromDrops(re, s, i, e);
    RemoveFromSkips(re, open, s, e, |s|);
  }

  /** A `（N字）` annotation is removed, and nothing else. */
  lemma CleanFullwidthCount(a: string, digits: string, b: string)
    requires Plain(a) && Plain(b) && digits != [] && AllDigits(digits)
    ensures Clean(a + "（" + digits + "字）" + b) == a + b
  {
    CharCountRemoved('（', '）', a, digits, b);
    assert FullwidthCount == CharCount('（', '）');
    assert a + "（" + digits + "字）" + b == a + ['（'] + digits + ['字', '）'] + b;
    assert Plain(a + b);
    CountsOpen();
    RemoveAllWithout(AsciiCount, '(', a + b);
    RemoveFirstWithout(WordCount, '(', a + b);
  }

  /** A `(N字)` annotation is removed, and nothing else. */
  lemma CleanAsciiCount(a: string, digits: string, b: string)
    requires Plain(a) && Plain(b) && digits != [] && AllDigits(digits)
    ensures Clean(a + "(" + digits + "字)" + b) == a + b
  {
    CountsOpen();
    var s := a + "(" + digits + "字)" + b;
    assert '（' !in digits;
    RemoveAllWithout(FullwidthCount, '（', s);
    CharCountRemoved('(', ')', a, digits, b);
    assert AsciiCount == CharCount('(', ')');
    assert s == a + ['('] + digits + ['字', ')'] + b;
    assert Plain(a + b);
    RemoveFirstWithout(WordCount, '(', a + b);
  }

  /** `(`, digits ending at `d`, white space ending at `w`, then `words)`:
      a word count matched in full. */
  lemma WordCountAt(s: string, i: nat, d: nat, w: nat)
    requires i + 1 < d <= w && w + 6 <= |s| && s[i] == '('
    requires DigitsEnd(s, i + 1) == d && SpacesEnd(s, d) == w
    requires WordAt("words", true, s, w) && s[w + 5] == ')'
    ensures MatchEnd(WordCount, s, i) == Some(w + 6)
  {
    var atoms := WordCount.alternatives[0];
    SeqStep(atoms, 0, true, s, i, i + 1);
    SeqStep(atoms, 1, true, s, i + 1, d);
    SeqStep(atoms, 2, true, s, d, w);
    SeqStep(atoms, 3, true, s, w, w + 5);
    SeqStep(atoms, 4, true, s, w + 5, w + 6);
  }

  /** A word count is no character count: after its digits comes white
      space or `w`, never `字`. */
  lemma AsciiCountMiss(s: string, i: nat, d: nat)
    requires i + 1 <= d < |s| && s[d] != '字' && !IsDigit(s[d])
    requires forall j :: i + 1 <= j < d ==> IsDigit(s[j])
    ensures !MatchesAt(AsciiCount, s, i)
  {
    DigitsEndAt(s, i + 1, d);
    var atoms := AsciiCount.alternatives[0];
    if s[i] == '(' {
      SeqStep(atoms, 0, false, s, i, i + 1);
      if i + 1 < d {
        SeqStep(atoms, 1, false, s, i + 1, d);
      }
    }
  }

  /** A bracket at `k` that no digit follows, as in "(before spring)". */
  predicate Aside(s: string, k: nat)
    requires k < |s|
  {
    k + 1 == |s| || !IsDigit(s[k + 1])
  }

  /** Neither count annotation starts at a bracket that no digit follows:
      both need at least one digit after it. */
  lemma AsideNoCount(s: string, k: nat)
    requires k < |s| && Aside(s, k)
    ensures !MatchesAt(AsciiCount, s, k) && !MatchesAt(WordCount, s, k)
  {
    if s[k] == '(' {
      SeqStep(AsciiCount.alternatives[0], 0, false, s, k, k + 1);
      SeqStep(WordCount.alternatives[0], 0, true, s, k, k + 1);
    }
  }

  /** Text in which the `(` at `i` opens digits followed by neither a
      digit nor `字`, and every other `(` is an aside, passes through the
      removal of `(N字)` unchanged. */
  lemma AsciiCountKeeps(s: string, i: nat, d: nat)
    requires i + 1 <= d < |s| && s[d] != '字' && !IsDigit(s[d])
    requires forall j :: i + 1 <= j < d ==> IsDigit(s[j])
    requires forall k :: 0 <= k < |s| && k != i && s[k] == '(' ==> Aside(s, k)
    ensures RemoveAll(AsciiCount, s) == s
  {
    CountsOpen();
    forall k | 0 <= k < |s|
      ensures !MatchesAt(AsciiCount, s, k)
    {
      if k == i {
        AsciiCountMiss(s, i, d);
      } else if s[k] == '(' {
        AsideNoCount(s, k);
      } else {
        NoOpenNoMatch(AsciiCount, '(', s, k);
      }
    }
    RemoveFromNoMatch(AsciiCount, s, 0);
    assert s[0..] == s;
  }

  /** Where there is no `（` and every `(` other than the word count's at
      `i` is an aside, cleaning removes exactly that word count: asides
      before it stay, as in "Act now (before spring). (45 words)". */
  lemma CleanRemovesWordCount(s: string, i: nat, d: nat, w: nat)
    requires i + 1 < d <= w && w + 6 <= |s| && s[i] == '('
    requires '（' !in s
    requires forall k :: 0 <= k < |s| && k != i && s[k] == '(' ==> Aside(s, k)
    requires forall j :: i + 1 <= j < d ==> IsDigit(s[j])
    requires forall j :: d <= j < w ==> IsSpace(s[j])
    requires WordAt("words", true, s, w) && s[w + 5] == ')'
    ensures Clean(s) == s[..i] + s[w + 6..]
  {
    WordCountGap(s, d, w);
    CountsOpen();
    RemoveAllWithout(FullwidthCount, '（', s);
    AsciiCountKeeps(s, i, d);
    WordCountFrom(s, i, d, w);
    forall k | 0 <= k < i
      ensures !MatchesAt(WordCount, s, k)
    {
      if s[k] == '(' {
        AsideNoCount(s, k);
      } else {
        NoOpenNoMatch(WordCount, '(', s, k);
      }
    }
    RemoveFirstAt(WordCount, s, i, w + 6);
  }

  /** An aside before a word count survives cleaning: in
      "Act now (before spring). (45 words)" only the count goes. */
  lemma CleanKeepsAside(a: string, c: char, m: string, digits: string, ws: string, v: string, b: string)
    requires Plain(a) && Plain(m) && Plain(b) && c != '(' && c != '（' && !IsDigit(c)
    requires digits != [] && AllDigits(digits) && AllSpace(ws) && SpelledAs(v, "words")
    ensures Clean(a + "(" + [c] + m + "(" + digits + ws + v + ")" + b) == a + "(" + [c] + m + b
  {
    var pre := a + "(" + [c] + m;
    var s := pre + "(" + digits + ws + v + ")" + b;
    var i := |pre|;
    var d := i + 1 + |digits|;
    var w := d + |ws|;
    assert s[i] == '(';
    assert forall j :: 0 <= j < i ==> s[j] == pre[j];
    assert forall j :: i + 1 <= j < d ==> s[j] == digits[j - i - 1];
    assert forall j :: d <= j < w ==> s[j] == ws[j - d];
    assert forall j :: 0 <= j < 5 ==> s[w + j] == v[j];
    assert forall j :: w + 6 <= j < |s| ==> s[j] == b[j - w - 6];
    assert s[w..w + 5] == v && s[w + 5] == ')';
    SpelledAt(v, "words", s, w);
    assert '（' !in v && '(' !in v by {
      forall j | 0 <= j < 5 ensures v[j] != '（' && v[j] != '(' {
        assert CharMatches(v[j], "words"[j], true);
      }
    }
    assert s[|a| + 1] == c;
    assert Aside(s, |a|);
    assert forall k :: 0 <= k < |s| && k != i && s[k] == '(' ==> k == |a|;
    assert '（' !in s by {
      assert '（' !in digits && '（' !in ws;
      assert '（' !in pre;
    }
    CleanRemovesWordCount(s, i, d, w);
    assert s[..i] == pre && s[w + 6..] == b;
  }

  /** What follows the digits of a word count is white space or the `w` of
      `words`: neither a digit nor `字`. */
  lemma WordCountGap(s: string, d: nat, w: nat)
    requires d <= w && w + 5 <= |s| && WordAt("words", true, s, w)
    requires forall j :: d <= j < w ==> IsSpace(s[j])
    ensures s[d] != '字' && !IsDigit(s[d])
  {
    if d < w {
      assert IsSpace(s[d]);
    } else {
      assert CharMatches(s[w + 0], "words"[0], true);
    }
  }

  /** The positional description of a word-count annotation is a match. */
  lemma WordCountFrom(s: string, i: nat, d: nat, w: nat)
    requires i + 1 < d <= w && w + 6 <= |s| && s[i] == '('
    requires forall j :: i + 1 <= j < d ==> IsDigit(s[j])
    requires forall j :: d <= j < w ==> IsSpace(s[j])
    requires !IsDigit(s[d]) && WordAt("words", true, s, w) && s[w + 5] == ')'
    ensures MatchEnd(WordCount, s, i) == Some(w + 6)
  {
    DigitsEndAt(s, i + 1, d);
    assert CharMatches(s[w + 0], "words"[0], true);
    SpacesEndAt(s, d, w);
    WordCountAt(s, i, d, w);
  }

  /** A `(N words)` annotation, with any white space before `words` and
      `words` in any ASCII case, is removed, and nothing else. */
  lemma CleanWordCount(a: string, digits: string, ws: string, v: string, b: string)
    requires Plain(a) && Plain(b) && digits != [] && AllDigits(digits) && AllSpace(ws)
    requires SpelledAs(v, "words")
    ensures Clean(a + "(" + digits + ws + v + ")" + b) == a + b
  {
    var s := a + "(" + digits + ws + v + ")" + b;
    var i := |a|;
    var d := i + 1 + |digits|;
    var w := d + |ws|;
    assert s[i] == '(';
    assert forall j :: i + 1 <= j < d ==> s[j] == digits[j - i - 1];
    assert forall j :: d <= j < w ==> s[j] == ws[j - d];
    assert forall j :: 0 <= j < 5 ==> s[w + j] == v[j];
    assert s[w..w + 5] == v && s[w + 5] == ')';
    SpelledAt(v, "words", s, w);
    assert '（' !in v && '(' !in v by {
      forall j | 0 <= j < 5 ensures v[j] != '（' && v[j] != '(' {
        assert CharMatches(v[j], "words"[j], true);
      }
    }
    assert '（' !in s by {
      assert '（' !in digits && '（' !in ws;
    }
    CleanRemovesWordCount(s, i, d, w);
    assert s[..i] == a && s[w + 6..] == b;
  }

  // ---------------------------------------------------------------------
  // Segmentation

  /** Text without `#` is its own reading, with the first 100 characters
      and an ellipsis as the summary. */
  lemma SegmentWithoutHash(text: string)
    requires '#' !in text
    ensures Segment(text) == Interpretation(text, Take(text, 100) + "...")
  {
    NoHashNoMarker(text);
  }

  /** Segmentation at the only marker, found at `p` with its word at `q`:
      the text before it, trimmed, is the reading and the text after it,
      trimmed and cleaned, the summary. */
  lemma SegmentAtMarker(text: string, p: nat, q: nat, w: string, before: string, after: string)
    requires HashesAt(text, p, q) && IsMarkerWord(w) && WordAt(w, true, text, q)
    requires forall k :: 0 <= k < |text| && (k < p || q + |w| <= k) ==> text[k] != '#'
    requires before == text[..p] && after == text[q + |w|..]
    ensures Segment(text) == Interpretation(Trim(before), Clean(Trim(after)))
  {
    MarkerOpens();
    var e := q + |w|;
    MarkerMatches(text, p, q, w);
    forall k | 0 <= k < |text| && (k < p || e <= k)
      ensures !MatchesAt(SummaryMarker, text, k)
    {
      NoOpenNoMatch(SummaryMarker, '#', text, k);
    }
    FindFromFirst(SummaryMarker, text, 0, p);
    assert FindFrom(SummaryMarker, text, e) == None;
    SplitAtLast(text, p, e);
    assert Segment(text) == SplitAt(text, p);
  }

  /** Segmentation in terms of where the marker expression matches: with
      its first match at `p` ending at `e`, the reading is the trimmed text
      before `p` and the summary the trimmed, cleaned text from `e` up to
      the next match, or to the end of the text when there is none. */
  lemma SegmentAtFirstMarker(text: string, p: nat, e: nat, q: nat)
    requires p < |text| && MatchEnd(SummaryMarker, text, p) == Some(e)
    requires forall k :: 0 <= k < p ==> !MatchesAt(SummaryMarker, text, k)
    requires e <= q <= |text|
    requires forall k :: e <= k < q ==> !MatchesAt(SummaryMarker, text, k)
    requires q == |text| || MatchesAt(SummaryMarker, text, q)
    ensures HasMarker(text)
    ensures Segment(text) == Interpretation(Trim(text[..p]), Clean(Trim(text[e..q])))
  {
    FindFromFirst(SummaryMarker, text, 0, p);
    if q < |text| {
      FindFromFirst(SummaryMarker, text, e, q);
    } else {
      assert FindFrom(SummaryMarker, text, e) == None;
    }
    assert SummaryEnd(text, e) == q;
  }

  /** The split at the last marker runs to the end of the text. */
  lemma SplitAtLast(text: string, p: nat, e: nat)
    requires FindFrom(SummaryMarker, text, 0) == Some(p)
    requires MatchEnd(SummaryMarker, text, p) == Some(e)
    requires FindFrom(SummaryMarker, text, e) == None
    ensures SplitAt(text, p) == Parts(text[..p], text[e..])
  {
    assert text[e..|text|] == text[e..];
  }

  /** Splitting inverts composition: a reading, a heading spelling a marker
      word in any ASCII case, and a summary body, with no `#` in the reading
      or the body, segment back into the trimmed reading and the cleaned,
      trimmed body. */
  lemma SegmentComposed(a: string, ws: string, v: string, w: string, b: string)
    requires '#' !in a && '#' !in b
    requires AllSpace(ws) && IsMarkerWord(w) && SpelledAs(v, w)
    ensures Segment(a + ("###" + ws + v) + b) == Interpretation(Trim(a), Clean(Trim(b)))
  {
    var m := "###" + ws + v;
    assert CharMatches(v[0], w[0], true);
    HeadingLayout(ws, v);
    MarkerLayout(a, m, |ws|, v, b);
    var q := |a| + 3 + |ws|;
    SpelledAt(v, w, a + m + b, q);
    SegmentAtMarker(a + m + b, |a|, q, w, a, b);
  }

  /** A heading `###`, white space and a word, described by position. */
  predicate HeadingShape(m: string, n: nat, w: string)
  {
    && |m| == 3 + n + |w|
    && m[0] == '#' && m[1] == '#' && m[2] == '#'
    && (forall j :: 3 <= j < 3 + n ==> IsSpace(m[j]))
    && m[3 + n..] == w
  }

  lemma HeadingLayout(ws: string, w: string)
    requires AllSpace(ws)
    ensures HeadingShape("###" + ws + w, |ws|, w)
  {
    var h := "###" + ws;
    var m := h + w;
    forall j | 3 <= j < 3 + |ws|
      ensures IsSpace(m[j])
    {
      assert m[j] == h[j] == ws[j - 3];
    }
    assert m[0] == h[0] && m[1] == h[1] && m[2] == h[2];
    assert m[|h|..] == w;
  }

  /** Where the parts of a composed text sit. */
  lemma MarkerLayout(a: string, m: string, n: nat, w: string, b: string)
    requires '#' !in a && '#' !in b
    requires HeadingShape(m, n, w) && w != [] && !IsSpace(w[0])
    ensures var text := a + m + b;
      var p := |a|;
      var q := p + 3 + n;
      && HashesAt(text, p, q)
      && q + |w| <= |text| && text[q..q + |w|] == w
      && (forall k :: 0 <= k < |text| && (k < p || q + |w| <= k) ==> text[k] != '#')
      && a == text[..p] && b == text[q + |w|..]
  {
    var am := a + m;
    var text := am + b;
    var p := |a|;
    var q := p + 3 + n;
    forall j | p <= j < p + |m|
      ensures text[j] == m[j - p]
    {
      assert text[j] == am[j];
    }
    assert text[p] == m[0] && text[p + 1] == m[1] && text[p + 2] == m[2];
    forall j | p + 3 <= j < q
      ensures IsSpace(text[j])
    {
      assert text[j] == m[j - p];
    }
    assert m[3 + n] == w[0];
    assert text[q..q + |w|] == m[3 + n..];
    forall k | 0 <= k < |text| && (k < p || q + |w| <= k)
      ensures text[k] != '#'
    {
      if k < p {
        assert text[k] == am[k] == a[k];
      } else {
        assert text[k] == b[k - |am|];
      }
    }
    assert text[..p] == am[..p] == a;
    assert text[|am|..] == b;
  }

  /** The space that stood before a removed annotation stays, because the
      summary is trimmed before it is cleaned. */
  lemma CleanExample()
    ensures Clean("Short form (120 words).") == "Short form ."
  {
    CleanWordCount("Short form ", "120", " ", "words", ".");
    assert "Short form " + "(" + "120" + " " + "words" + ")" + "." == "Short form (120 words).";
  }
}

=== FILE: wrappers.dfy ===
/** The optional-value datatype the model uses wherever the application
    returns `null`/`undefined` or leaves a value unset. */
module Wrappers {

  datatype Option<+T> = None | Some(value: T)
}
